=== FILE: README.md ===
# DoctrineBaseRepository criteria translator, in Dafny

This project models the core of `BaseRepository`. That class is a thin layer over Doctrine's query builder. It lets callers describe a lookup as nested PHP arrays: positional `[field, operator, value]` triples, keyed `field => value` shorthands, and `["or", [...]]` / `["and", [...]]` groups. It then translates them into a WHERE expression with bound named parameters.

The model covers:

- **`addCriteria`** (`Criteria.AddCriteria`, `AddEntries`, `AddEntry`). This is a recursive pure function. It threads the repository's parameter counter through the recursion. It returns either an `Error`, one per `throw`, or a `Translation`: the composite built so far, the parameters bound so far, and the counter afterwards.
- **The helpers of `addCriteria`**:
  - entry normalisation (`Criteria.Normalize`);
  - the alias qualification rule (`Criteria.Qualify`);
  - the operator dispatch (`AddComparison`, `AddNullCheck`, `AddMembership`);
  - the null-safe NOT IN expansion (`Criteria.NotInClauses`).
- **`createNamedParameter`** (`NamedParameters.CreateNamedParameter`). It bumps the counter and returns `:paramValueN`.
- **`prepareValue`** (`PrepareValue.Prepare`). A `\DateTime` becomes its formatted text. Arrays are prepared element by element. Every other value is kept.
- **`buildSearchCriteria`** (`SearchCriteria.BuildSearchCriteria`). It builds a free-text keyword search as criteria, and `SearchTranslation` shows what the translator makes of them.
- **The decision logic of `buildQuery`** (`QueryAssembly.BuildQuery`): joins, order, limit, offset and the where clause, recorded as a `Query` value. Also **`disableJoins`** (`Repositories.DisableJoins`).

PHP values are a datatype: null, bool, int, string, `\DateTime`, other objects, and ordered arrays of `int|string` keys with values. The ORM expression is an abstract tree: `andX`/`orX` composites, the seven comparisons, IS NULL, IS NOT NULL, IN, and raw SQL text. `$expr->add` is append. The operator tests follow PHP 7, which the code targets (it calls `implode($pieces, $glue)`). `in_array` and `==` against an operator word are loose: `true` and `0` equal every such word. `===` against "or"/"and" is strict. `if ($value)` is PHP truthiness.

Details of the code worth knowing:

- Keywords are split on single spaces after `trim`, and `array_filter` drops empty pieces and "0". Other whitespace does not separate keywords.
- A limit or offset is applied only when truthy, so an offset of 0 or a limit of 0 is ignored.
- A join names any query-builder join method: `join`, `innerJoin` or `leftJoin`.
- `not_in` over an empty array adds nothing at all.

## Model

| member | source | states |
|---|---|---|
| Repositories.DisableJoins | src/BaseRepository.php:15-20 | the switch takes the given value; alias, joins and date format are unchanged |
| QueryAssembly.BuildQuery | src/BaseRepository.php:61-121 | the query selects the alias. The default joins are added, in order and with dot-qualified columns, exactly when there are joins and neither the `disable_joins` option nor the instance switch is set; otherwise there are none. Every order key is qualified, in order, with its direction. Limit and offset are set only when truthy. There is a where clause exactly when there are filters, and it is an AND composite with at most one part per filter. Only the filters' translation can fail. The parameters are named consecutively from the counter. |
| QueryAssembly.OptionValue | src/BaseRepository.php:69-72 | a caller-supplied option overrides the default; without one the default stands |
| QueryAssembly.JoinSwitchesAgree | src/BaseRepository.php:70-89 | `disableJoins(true)` and the option `'disable_joins' => true` build the same query. That query is the plain query without joins, and it fails exactly when the plain one does. |
| Criteria.Qualify | src/BaseRepository.php:184-186 | the result always contains a '.'; a dotted name is unchanged; an undotted one becomes alias + "." + name, with the name as its suffix |
| CriteriaProperties.QualifyIdempotent | src/BaseRepository.php:184-186 | qualifying a qualified name leaves it unchanged: the alias is never prefixed twice |
| Criteria.QualifiedField | src/BaseRepository.php:184-186 | only a field with a string form (not an array or object) can be qualified; a string field is qualified by the alias rule |
| Criteria.Normalize | src/BaseRepository.php:129-182 | normalisation fails exactly for a positional non-array entry or a keyed array value, with the matching error. A positional field is never a group word. A keyed entry's field is its key. An array value always comes from inside the entry. |
| CriteriaProperties.NormalizeTriple | src/BaseRepository.php:139-140 | a three-element positional entry is (field, operator, value) |
| CriteriaProperties.NormalizeDefaultTrue | src/BaseRepository.php:141-147 | any other length gives (field, operator) with value `true`; missing positions read as null |
| CriteriaProperties.NormalizeGroup | src/BaseRepository.php:149-158 | an "or"/"and" field becomes the operator and the second element the group |
| CriteriaProperties.KeyedIsShorthand | src/BaseRepository.php:160-182 | `k => null` translates exactly as `[k, "is_null"]`, and `k => v` exactly as `[k, "eq", v]` |
| Criteria.ComparisonNamed | src/BaseRepository.php:195-219 | exactly the seven comparison words name an expression method, and each names its own comparison |
| CriteriaProperties.ComparisonWordNamed | src/BaseRepository.php:195-219 | comparison words and comparison methods correspond one to one |
| Criteria.AddCriteria | src/BaseRepository.php:123-300 | empty criteria fail with "Empty criteria". A success extends the given composite by at most one part per entry. Its parameters are named consecutively from the starting counter, which ends advanced by their number. |
| Criteria.AddEntry | src/BaseRepository.php:129-293 | a processed entry only appends to the composite, at most one part, and binds parameters named on from the counter |
| Criteria.AddComparison | src/BaseRepository.php:195-221 | an array value is rejected; a success appends exactly one part and binds parameters named on from the counter |
| Criteria.AddNullCheck | src/BaseRepository.php:223-243 | binds nothing, appends one part, and that part is IS NULL exactly when ("is_null", truthy value) or (other, falsy value) |
| Criteria.AddMembership | src/BaseRepository.php:245-290 | a non-array value is rejected; a success appends one part, except `not_in` over an empty array, which appends none |
| CriteriaProperties.ComparisonWithNull | src/BaseRepository.php:211-215 | a comparison against null is IS NULL of the qualified field, whatever the comparison, and binds nothing |
| CriteriaProperties.ComparisonBindsOne | src/BaseRepository.php:201-220 | a comparison against any other non-array value compares the qualified field, by the comparison its word names, with the next placeholder, and binds exactly one parameter holding the prepared value |
| CriteriaProperties.ComparisonRejectsArray | src/BaseRepository.php:197-199 | comparisons fail on array values |
| CriteriaProperties.IsNullOperator | src/BaseRepository.php:226-233 | "is_null" is IS NULL for a truthy value and IS NOT NULL otherwise |
| CriteriaProperties.NotNullIsInverse | src/BaseRepository.php:235-242 | "not_null" is the inverse: it equals "is_null" with the value's truth negated |
| CriteriaProperties.IsNullDefaultTrue | src/BaseRepository.php:141-146 | the two-element `[f, "is_null"]` is IS NULL of the qualified field |
| CriteriaProperties.NotNullDefaultTrue | src/BaseRepository.php:141-146 | the two-element `[f, "not_null"]` is IS NOT NULL of the qualified field |
| CriteriaProperties.InBindsWholeArray | src/BaseRepository.php:252-253 | "in" appends one IN with the next placeholder and binds one parameter holding the whole prepared array |
| CriteriaProperties.SetOperatorsRejectScalars | src/BaseRepository.php:247-249 | "in" and "not_in" fail on non-array values |
| CriteriaProperties.NotInEmpty | src/BaseRepository.php:280-288 | "not_in" over an empty array changes nothing |
| CriteriaProperties.NotInExpansion | src/BaseRepository.php:255-289 | "not_in" over a non-empty array appends one raw conjunction of the expansion's clauses and binds the expansion's parameters; the elements are the array's values, prepared |
| Criteria.NotInClauses | src/BaseRepository.php:261-278 | one clause per element, in element order. A null element gives "(f IS NOT NULL)". A non-null one gives "(f != :p OR f IS NULL)" with the next placeholder. One parameter is bound per non-null element, in order, holding it, and named consecutively from the counter. |
| CriteriaProperties.UnknownOperatorRejected | src/BaseRepository.php:291-293 | an operator outside the recognised words fails with "Unsupported operator" |
| CriteriaProperties.NonStringOperatorRejected | src/BaseRepository.php:291-293 | a non-string operator other than `true` or `0` fails with "Unsupported operator" |
| CriteriaProperties.LoneFieldRejected | src/BaseRepository.php:141-147 | a one-element entry `[f]` has the operator null and fails with "Unsupported operator" |
| CriteriaProperties.GroupEntry | src/BaseRepository.php:188-193 | an "or"/"and" group appends the translation of its criteria into a fresh orX/andX as one part. A non-array group fails, and so does an empty one, with "Empty criteria". |
| CriteriaProperties.MalformedEntryRejected | src/BaseRepository.php:132-165 | a positional non-array entry and a keyed array value fail with their errors before anything is added |
| CriteriaProperties.EntryAddsOnePart | src/BaseRepository.php:188-290 | every processed entry appends exactly one part, except "not_in" over an empty array |
| CriteriaProperties.AddEntriesSplit | src/BaseRepository.php:129-294 | the foreach over the entries is the foreach over a prefix followed by the foreach over the rest, from the state the prefix left |
| CriteriaProperties.AddEntriesAbort | src/BaseRepository.php:129-294 | a failure among the first entries is the failure of the whole foreach: there is no partial success |
| CriteriaProperties.FirstFailureAborts | src/BaseRepository.php:123-297 | when the first k entries succeed and entry k fails, `addCriteria` fails with entry k's error |
| CriteriaProperties.TranslationNamesDistinct | src/BaseRepository.php:302-314 | a translation binds parameters under pairwise distinct names, and the counter advances by their number |
| CriteriaProperties.TranslationIgnoresJoins | src/BaseRepository.php:123-300 | the translation depends on the alias and the date format only, not on the joins or the join switch |
| NamedParameters.CreateNamedParameter | src/BaseRepository.php:302-314 | the counter advances by one. The placeholder is ":paramValue" followed by the new counter. The parameter is named by the placeholder without its ':' and holds the value. |
| NamedParameters.PlaceholderInjective | src/BaseRepository.php:305-308 | two calls give the same placeholder exactly when they start from the same counter |
| NamedParameters.IssuedNamesDistinct | src/BaseRepository.php:305-311 | parameters bound by consecutive calls have pairwise distinct names |
| PhpStrings.NatToString | src/BaseRepository.php:308 | the counter's decimal text in the placeholder: at least one digit, only digits, and no leading zero |
| PhpStrings.NatToStringInjective | src/BaseRepository.php:308 | distinct counters have distinct decimal texts |
| PhpStrings.DigitsValueOfNatToString | src/BaseRepository.php:308 | reading a counter's decimal text back gives the counter |
| PrepareValue.Prepare | src/BaseRepository.php:316-343 | a `\DateTime` becomes its formatted text. A value containing no date is returned unchanged. An array stays an array with the same length and keys, in order. Null stays null, and no date is left anywhere. |
| PrepareValue.PrepareIdempotent | src/BaseRepository.php:316-343 | preparing a prepared value changes nothing |
| PrepareValue.PrepareEntries | src/BaseRepository.php:331-338 | the array loop keeps every key in order and prepares each value |
| PhpValues.LooselyInCharacterised | src/BaseRepository.php:150 | PHP 7's loose `in_array` against operator words holds for the words themselves, for `true` and for `0` |
| PhpValues.Lookup | src/BaseRepository.php:140-143 | `list()` reads the value of the first entry whose key is the index, wherever it stands in the array, and null when no entry has that index |
| PhpValues.ToText | src/BaseRepository.php:184-186 | the string conversion `stripos` and the concatenation apply: exactly the values other than arrays and objects have a string form, and a string converts to itself |
| PhpValues.LookupListFrom | src/BaseRepository.php:140-143 | `list()` on a list reads the element at each position and null past its end |
| PhpStrings.Trim | src/BaseRepository.php:352 | `trim` removes exactly the leading and trailing trimmable characters |
| PhpStrings.Explode | src/BaseRepository.php:352 | `explode(" ", …)` always gives at least one piece, and no piece contains a space |
| PhpStrings.ImplodeExplode | src/BaseRepository.php:352 | exploding on spaces loses nothing: imploding the pieces with " " restores the string |
| SearchCriteria.KeepTruthy | src/BaseRepository.php:352 | `array_filter` keeps a piece exactly when it is a truthy piece of the input; when all are truthy it keeps them all |
| SearchCriteria.KeepTruthyAppend | src/BaseRepository.php:352 | `array_filter` keeps input order: filtering a concatenation is concatenating the filtered halves |
| SearchCriteria.Keywords | src/BaseRepository.php:352 | keywords contain no space and are never "" or "0" |
| SearchCriteria.KeywordsOfJoined | src/BaseRepository.php:352 | pieces joined by single spaces read back as exactly their truthy pieces, in order, so runs of spaces and "0" pieces are dropped |
| SearchCriteria.KeywordsRoundTrip | src/BaseRepository.php:352 | keywords written out separated by single spaces are read back exactly |
| SearchCriteria.BuildSearchCriteria | src/BaseRepository.php:345-376 | without columns the call fails. Otherwise the result is `["and", groups]` with one `["or", clauses]` group per keyword, in keyword order. Each group has one `[column, "like", "%keyword%"]` clause per column, in column order. |
| SearchTranslation.OrGroupTranslation | src/BaseRepository.php:364-367 | one keyword's like-clauses translate into an OR of `column LIKE :p` over the columns in order. The pattern is bound once per column, and the counter advances by the number of columns. |
| SearchTranslation.AndGroupsTranslation | src/BaseRepository.php:358-375 | the keyword groups translate into an AND with one OR per keyword, in order. There is one parameter per keyword and column, and the counter advances by their product. |
| SearchTranslation.SearchEntryTranslation | src/BaseRepository.php:375 | the entry `["and", groups]` fails with "Empty criteria" when there are no keywords, and otherwise adds the AND of the keyword groups |
| SearchTranslation.SearchCriteriaTranslation | src/BaseRepository.php:345-376 | the search criteria, as one filter, always build. With no keyword their translation fails with "Empty criteria". Otherwise it is the AND over the keywords of the OR over the columns of `column LIKE :p`, binding "%keyword%" once per keyword and column. |

## Left out

- `countRows`, `findFiltered` and `findOneFiltered` (lines 22-59) are left out: they run the query against the database, which is ORM I/O.
- `createQueryBuilder`, `getEntityManager` and Doctrine's `Expr`/`Composite` classes are not part of this model. The expression is an abstract tree and `add` is append. How Doctrine renders it, or whether it drops a composite with no parts, is not modelled. That case arises for a where clause whose only filters are `not_in` over empty arrays, and for an "or"/"and" group, at any depth, whose entries are all `not_in` over empty arrays. The model counts such a group as one part of its parent.
- `DateTime::format('Y-m-d H:i:s')` is a function parameter of the repository (`formatDate`), not an implementation.
- `is_numeric` on array keys is abstracted: integer keys are positional and string keys are keyed. PHP's conversion of canonical numeric strings such as "12" to integer keys happens before the model sees the array. Non-canonical numeric strings such as "1.5", "01" or " 7" stay string keys in PHP, yet `is_numeric` (line 132) makes them positional; the model treats them as keyed, so `["01" => ["id", "eq", 1]]` fails with `IndexedArrayValue` where PHP accepts it as a positional entry.
- Floats are not among the modelled values.
- Criteria.QualifiedField: in PHP an array or object field passes `stripos` with a warning. PHP then either continues with a warning (an array field becomes the text "Array") or fails at string conversion (an object field under `not_in`, whose clauses concatenate the field). The model stops earlier, with the error `FieldNotScalar`.
- Criteria.AddCriteria: in PHP three effects of the entries before a `throw` persist. The counter increments stay on the instance. The parts already added by `$expr->add` stay in the caller's composite, which is changed in place. The parameters already bound by `setParameter` (line 311) stay on the caller's query builder. `addCriteria` is public, so a caller that catches the exception sees this partial state; `buildQuery` discards the builder. The model returns only the error, so none of this partial state is modelled.
- The join specifications are modelled as well-formed triples. `list()` on a malformed join array, and join method names other than `join`, `innerJoin` and `leftJoin`, are left out.
- NamedParameters.CreateNamedParameter: the counter is an unbounded `nat`. PHP's integer counter would turn into a float at `PHP_INT_MAX` (line 305) and produce placeholders in float notation; no realistic run issues that many parameters.
- QueryAssembly.BuildQuery: `$order` is a PHP array; a non-array `$order` is left out. Under PHP 7, `count` on it returns 0 for null and 1 for a scalar (with a warning from 7.2 on), and the `foreach` that follows warns and skips it.
- Criteria.AddEntry: the TypeError PHP raises for a non-array "or"/"and" group, which it passes to the `array $criteria` parameter, is modelled as the error `GroupNotArray`.
- SearchTranslation.OrGroupTranslation: it assumes that no searchable column is named "or" or "and" (`PlainNames`). Such a column is accepted by `buildSearchCriteria` and makes the translator fail; that case is not stated.
- SearchTranslation.AndGroupsTranslation: the same assumption, that no searchable column is named "or" or "and", for the same reason.
- SearchTranslation.SearchEntryTranslation: the same assumption, that no searchable column is named "or" or "and", for the same reason.
- SearchTranslation.SearchCriteriaTranslation: it assumes that no searchable column is named "or" or "and". Such a column would make every like-clause a group marker, and that case is not stated.

=== FILE: criteria.dfy ===
/** `addCriteria`: the recursive translation of a nested criteria array into
    a composite expression plus the parameters it binds. The repository's
    parameter counter is threaded through the recursion; every `throw` of
    the translator (and the type errors PHP raises on its behalf) is a
    `Failure`. A failure returns only the error: the parts and parameters
    PHP has already added to the caller's composite and query builder, and
    the counter increments, are not part of the result. */
module Criteria {
  import opened Wrappers
  import opened PhpStrings
  import opened PhpValues
  import opened Expressions
  import opened NamedParameters
  import opened Repositories
  import PrepareValue

  datatype Error =
    /** A positional entry whose value is not an array. */
    | NonIndexedNotArray
    /** A keyed entry whose value is an array. */
    | IndexedArrayValue
    /** An "or"/"and" group whose value is not an array (PHP's TypeError
        for the `array $criteria` parameter). */
    | GroupNotArray
    /** An array value for a comparison operator. */
    | ArrayLookupUnsupported(op: Value)
    /** A comparison operator that matched only loosely (`true` or `0`)
        and so names no expression-builder method. */
    | UndefinedExprMethod(op: Value)
    /** A field that is an array or an object and so has no string form. */
    | FieldNotScalar(field: Value)
    /** A non-array value for "in" or "not_in". */
    | InvalidValueForOperator(op: Value)
    /** An operator outside the recognised set. */
    | UnsupportedOperator(op: Value)
    /** A criteria array with no entries, at any nesting level. */
    | EmptyCriteria
    /** `buildSearchCriteria` without searchable columns. */
    | NoSearchableColumns

  /** One criteria entry brought to (field, operator, value) form. */
  datatype Criterion = Criterion(field: Value, op: Value, value: Value)

  /** What a translation step has produced: the composite so far, every
      parameter bound so far, and the counter afterwards. */
  datatype Translation = Translation(expr: Expr, params: seq<Param>, counter: nat)

  const GroupWords: seq<string> := ["or", "and"]
  const ComparisonWords: seq<string> := ["eq", "neq", "gt", "gte", "lt", "lte", "like"]
  const NullWords: seq<string> := ["is_null", "not_null"]
  const SetWords: seq<string> := ["in", "not_in"]

  /** `in_array($field, array("or", "and"))`. */
  predicate IsGroupWord(v: Value)
  {
    LooselyIn(v, GroupWords)
  }

  /** The alias rule: a name without a '.' is prefixed with the alias and
      a '.'; a dotted name is already qualified. */
  function Qualify(alias: string, name: string): (r: string)
    ensures '.' in r
    ensures '.' in name ==> r == name
    ensures '.' !in name ==> r == alias + "." + name && r[|alias| + 1..] == name
  {
    if '.' in name then name else alias + "." + name
  }

  /** The field as the translator uses it: converted to a string and
      qualified; `None` for arrays and objects. */
  function QualifiedField(alias: string, field: Value): (r: Option<string>)
    ensures r.Some? <==> !field.Arr? && !IsObject(field)
    ensures field.Str? ==> r == Some(Qualify(alias, field.s))
  {
    match ToText(field)
    case None => None
    case Some(s) => Some(Qualify(alias, s))
  }

  /** Brings one entry to (field, operator, value) form. A positional entry
      (integer key) must be an array read with `list()`: three elements give
      field, operator and value, any other count gives field and operator
      with value `true`; when the field is "or"/"and" it becomes the
      operator and the second element the group. A keyed entry `k => v`
      means `k` is null when `v` is null and `k` equals `v` otherwise. */
  function Normalize(e: Entry): (r: Result<Criterion, Error>)
    ensures r.Failure? <==> (e.key.IntKey? && !e.val.Arr?) || (e.key.StrKey? && e.val.Arr?)
    ensures r.Failure? ==> r.error == (if e.key.IntKey? then NonIndexedNotArray else IndexedArrayValue)
    ensures r.Success? && e.key.IntKey? ==> !IsGroupWord(r.value.field)
    ensures r.Success? && e.key.StrKey? ==> r.value.field == Str(e.key.s)
    ensures r.Success? && r.value.value.Arr? ==>
              e.val.Arr? && exists j :: 0 <= j < |e.val.entries| && e.val.entries[j].val == r.value.value
  {
    match e.key
    case IntKey(_) =>
      if !e.val.Arr? then Failure(NonIndexedNotArray)
      else
        var es := e.val.entries;
        var field := Lookup(es, 0);
        var op := Lookup(es, 1);
        var value := if |es| == 3 then Lookup(es, 2) else Bool(true);
        if IsGroupWord(field) then Success(Criterion(Null, field, op))
        else Success(Criterion(field, op, value))
    case StrKey(k) =>
      if e.val.Arr? then Failure(IndexedArrayValue)
      else if e.val.Null? then Success(Criterion(Str(k), Str("is_null"), Bool(true)))
      else Success(Criterion(Str(k), Str("eq"), e.val))
  }

  /** The operator word that names each comparison method. */
  function ComparisonWord(c: Comparison): (w: string)
    ensures w in ComparisonWords
  {
    match c
    case Eq => "eq"
    case Neq => "neq"
    case Gt => "gt"
    case Gte => "gte"
    case Lt => "lt"
    case Lte => "lte"
    case Like => "like"
  }

  /** The expression-builder method `expr()->{$operator}` reaches: exactly
      the comparison words name one, and the one they name. */
  function ComparisonNamed(op: Value): (r: Option<Comparison>)
    ensures r.Some? <==> op.Str? && op.s in ComparisonWords
    ensures r.Some? ==> op == Str(ComparisonWord(r.value))
  {
    match op
    case Str("eq") => Some(Eq)
    case Str("neq") => Some(Neq)
    case Str("gt") => Some(Gt)
    case Str("gte") => Some(Gte)
    case Str("lt") => Some(Lt)
    case Str("lte") => Some(Lte)
    case Str("like") => Some(Like)
    case _ => None
  }

  /** The entry is a well-formed "not_in" over an empty array: the one case
      in which a processed entry adds no part to the composite. */
  predicate AppendsNothing(e: Entry)
  {
    var n := Normalize(e);
    n.Success? && n.value.op == Str("not_in") && n.value.value == Arr([])
  }

  /** The NOT IN clause for a null element: the field must not be null. */
  function NotNullClause(field: string): (sql: string)
  {
    "(" + field + " IS NOT NULL)"
  }

  /** The NOT IN clause for a bound element: different, or null. */
  function NotEqualClause(field: string, placeholder: string): (sql: string)
  {
    "(" + field + " != " + placeholder + " OR " + field + " IS NULL)"
  }

  /** The whole null-safe NOT IN: the clauses conjoined in parentheses. */
  function NotInSql(clauses: seq<string>): (sql: string)
  {
    "(" + Implode(clauses, " AND ") + ")"
  }

  /** The values of an array, in iteration order. */
  function Values(es: seq<Entry>): (r: seq<Value>)
    ensures |r| == |es| && forall j :: 0 <= j < |es| ==> r[j] == es[j].val
  {
    seq(|es|, j requires 0 <= j < |es| => es[j].val)
  }

  /** The non-null elements of `vs`, in order. */
  function NonNull(vs: seq<Value>): (kept: seq<Value>)
  {
    if |vs| == 0 then []
    else (if vs[0].Null? then [] else [vs[0]]) + NonNull(vs[1..])
  }

  /** The clauses of the NOT IN expansion and the parameters they bind. */
  datatype NotIn = NotIn(clauses: seq<string>, params: seq<Param>, counter: nat)

  /** The clause the NOT IN expansion writes for the i-th element, when the
      counter stood at `counter` before the first element. */
  function ClauseAt(field: string, elems: seq<Value>, counter: nat, i: nat): (clause: string)
    requires i < |elems|
  {
    if elems[i].Null? then NotNullClause(field)
    else NotEqualClause(field, Placeholder(counter + |NonNull(elems[..i])| + 1))
  }

  /** The loop of the null-safe NOT IN over the prepared elements: one
      clause per element in element order, a fresh parameter for each
      non-null element, bound to that element. */
  function NotInClauses(field: string, elems: seq<Value>, counter: nat): (r: NotIn)
    ensures |r.clauses| == |elems|
    ensures forall i :: 0 <= i < |elems| ==> r.clauses[i] == ClauseAt(field, elems, counter, i)
    ensures Issued(r.params, counter, r.counter)
    ensures |r.params| == |NonNull(elems)|
    ensures forall k :: 0 <= k < |r.params| ==> r.params[k].value == NonNull(elems)[k]
  {
    if |elems| == 0 then NotIn([], [], counter)
    else
      var p := CreateNamedParameter(counter, elems[0]);
      var next := if elems[0].Null? then counter else p.counter;
      var rest := NotInClauses(field, elems[1..], next);
      var bound := if elems[0].Null? then [] else [p.param];
      var r := NotIn([ClauseAt(field, elems, counter, 0)] + rest.clauses, bound + rest.params, rest.counter);
      NotInClausesStep(field, elems, counter, next, rest.clauses, r.clauses);
      NotInParamsStep(elems, counter, next, rest.params, r.params, rest.counter);
      r
  }

  /** The clauses of the elements after the first, shifted by one. */
  lemma NotInClausesStep(field: string, elems: seq<Value>, counter: nat, next: nat,
                         rest: seq<string>, clauses: seq<string>)
    requires |elems| > 0
    requires next == if elems[0].Null? then counter else counter + 1
    requires |rest| == |elems| - 1
    requires forall i :: 0 <= i < |rest| ==> rest[i] == ClauseAt(field, elems[1..], next, i)
    requires clauses == [ClauseAt(field, elems, counter, 0)] + rest
    ensures forall i :: 0 <= i < |elems| ==> clauses[i] == ClauseAt(field, elems, counter, i)
  {
    NonNullPrefixes(elems);
    forall i | 1 <= i < |elems|
      ensures clauses[i] == ClauseAt(field, elems, counter, i)
    {
      assert clauses[i] == rest[i - 1];
      assert elems[i] == elems[1..][i - 1];
    }
  }

  /** The parameters of the elements after the first, behind the first
      element's own when it is not null. */
  lemma NotInParamsStep(elems: seq<Value>, counter: nat, next: nat,
                        rest: seq<Param>, params: seq<Param>, to: nat)
    requires |elems| > 0
    requires next == if elems[0].Null? then counter else counter + 1
    requires Issued(rest, next, to)
    requires |rest| == |NonNull(elems[1..])|
    requires forall k :: 0 <= k < |rest| ==> rest[k].value == NonNull(elems[1..])[k]
    requires params == (if elems[0].Null? then [] else [Param(ParamName(counter + 1), elems[0])]) + rest
    ensures Issued(params, counter, to)
    ensures |params| == |NonNull(elems)|
    ensures forall k :: 0 <= k < |params| ==> params[k].value == NonNull(elems)[k]
  {
    if !elems[0].Null? {
      IssuedConcat([Param(ParamName(counter + 1), elems[0])], rest, counter, counter + 1, to);
    }
  }

  /** Counting the non-null elements before position i, peeling the first
      element off. */
  lemma NonNullPrefixes(vs: seq<Value>)
    requires |vs| > 0
    ensures forall i :: 1 <= i <= |vs| ==>
              NonNull(vs[..i]) == (if vs[0].Null? then [] else [vs[0]]) + NonNull(vs[1..][..i - 1])
  {
    forall i | 1 <= i <= |vs|
      ensures NonNull(vs[..i]) == (if vs[0].Null? then [] else [vs[0]]) + NonNull(vs[1..][..i - 1])
    {
      assert vs[..i][1..] == vs[1..][..i - 1];
    }
  }

  /** Parameters issued after those already bound in `acc`. */
  predicate IssuedAfter(acc: Translation, t: Translation)
  {
    acc.params <= t.params && Issued(t.params[|acc.params|..], acc.counter, t.counter)
  }

  /** IssuedAfter composes along consecutive steps. */
  lemma IssuedAfterTransitive(a: Translation, b: Translation, c: Translation)
    requires IssuedAfter(a, b) && IssuedAfter(b, c)
    ensures IssuedAfter(a, c)
  {
    assert c.params[|a.params|..] == b.params[|a.params|..] + c.params[|b.params|..];
    IssuedConcat(b.params[|a.params|..], c.params[|b.params|..], a.counter, b.counter, c.counter);
  }

  /** `addCriteria($qb, $expr, $criteria)`: every entry of `criteria`, in
      order, adds its part to the composite `expr`. */
  function AddCriteria(repo: Repository, expr: Expr, criteria: seq<Entry>, counter: nat)
    : (r: Result<Translation, Error>)
    requires expr.Composite?
    ensures |criteria| == 0 ==> r == Failure(EmptyCriteria)
    ensures r.Success? ==> Extends(expr, r.value.expr)
    ensures r.Success? ==> |r.value.expr.parts| <= |expr.parts| + |criteria|
    ensures r.Success? ==> Issued(r.value.params, counter, r.value.counter)
    decreases Arr(criteria), 2
  {
    if |criteria| == 0 then Failure(EmptyCriteria)
    else AddEntries(repo, Translation(expr, [], counter), criteria, 0)
  }

  /** The foreach of `addCriteria` over `criteria[i..]`, starting from what
      the earlier entries produced. */
  function AddEntries(repo: Repository, acc: Translation, criteria: seq<Entry>, i: nat)
    : (r: Result<Translation, Error>)
    requires acc.expr.Composite? && i <= |criteria|
    ensures r.Success? ==> Extends(acc.expr, r.value.expr) && IssuedAfter(acc, r.value)
    ensures r.Success? ==> |r.value.expr.parts| <= |acc.expr.parts| + |criteria| - i
    decreases Arr(criteria), 1, |criteria| - i
  {
    if i == |criteria| then Success(acc)
    else
      match AddEntry(repo, acc, criteria[i])
      case Failure(err) => Failure(err)
      case Success(next) =>
        var r := AddEntries(repo, next, criteria, i + 1);
        if r.Success? then IssuedAfterTransitive(acc, next, r.value); r else r
  }

  /** One iteration of the foreach: normalise the entry, then either
      descend into an "or"/"and" group or dispatch on the operator. */
  function AddEntry(repo: Repository, acc: Translation, e: Entry): (r: Result<Translation, Error>)
    requires acc.expr.Composite?
    ensures r.Success? ==> Extends(acc.expr, r.value.expr) && IssuedAfter(acc, r.value)
    ensures r.Success? ==> |r.value.expr.parts| <= |acc.expr.parts| + 1
    decreases e, 0
  {
    match Normalize(e)
    case Failure(err) => Failure(err)
    case Success(c) =>
      if c.op == Str("or") || c.op == Str("and") then
        if !c.value.Arr? then Failure(GroupNotArray)
        else
          var junction := if c.op == Str("or") then OrX else AndX;
          match AddCriteria(repo, Composite(junction, []), c.value.entries, acc.counter)
          case Failure(err) => Failure(err)
          case Success(sub) =>
            Success(Translation(Append(acc.expr, sub.expr), acc.params + sub.params, sub.counter))
      else if LooselyIn(c.op, ComparisonWords) then AddComparison(repo, acc, c)
      else if LooselyIn(c.op, NullWords) then AddNullCheck(repo, acc, c)
      else if LooselyIn(c.op, SetWords) then AddMembership(repo, acc, c)
      else Failure(UnsupportedOperator(c.op))
  }

  /** The eq/neq/gt/gte/lt/lte/like branch: arrays are rejected, null is
      IS NULL whatever the comparison, and anything else (a DateTime,
      another object, a literal) is compared with a fresh placeholder
      bound to the prepared value. */
  function AddComparison(repo: Repository, acc: Translation, c: Criterion): (r: Result<Translation, Error>)
    requires acc.expr.Composite?
    ensures r.Success? ==> Extends(acc.expr, r.value.expr) && IssuedAfter(acc, r.value)
    ensures r.Success? ==> |r.value.expr.parts| == |acc.expr.parts| + 1
    ensures c.value.Arr? ==> r == Failure(ArrayLookupUnsupported(c.op))
  {
    var field := QualifiedField(repo.alias, c.field);
    if c.value.Arr? then Failure(ArrayLookupUnsupported(c.op))
    else if field.None? then Failure(FieldNotScalar(c.field))
    else if c.value.Null? then
      Success(Translation(Append(acc.expr, IsNull(field.value)), acc.params, acc.counter))
    else
      var p := CreateNamedParameter(acc.counter, PrepareValue.Prepare(repo.formatDate, c.value));
      match ComparisonNamed(c.op)
      case None => Failure(UndefinedExprMethod(c.op))
      case Some(cmp) =>
        Success(Translation(Append(acc.expr, Compare(cmp, field.value, p.placeholder)),
                            acc.params + [p.param], p.counter))
  }

  /** The is_null/not_null branch: "is_null" with a truthy value, or
      "not_null" with a falsy one, is IS NULL; the other two are IS NOT NULL.
      (`in_array` leaves "not_null" when the operator is not "is_null".) */
  function AddNullCheck(repo: Repository, acc: Translation, c: Criterion): (r: Result<Translation, Error>)
    requires acc.expr.Composite?
    ensures r.Success? ==> Extends(acc.expr, r.value.expr) && r.value.params == acc.params
    ensures r.Success? ==> r.value.counter == acc.counter
    ensures r.Success? ==> |r.value.expr.parts| == |acc.expr.parts| + 1
    ensures r.Success? ==>
              (r.value.expr.parts[|acc.expr.parts|].IsNull?
               <==> (LooselyEqualsWord(c.op, "is_null") == Truthy(c.value)))
  {
    var field := QualifiedField(repo.alias, c.field);
    if field.None? then Failure(FieldNotScalar(c.field))
    else
      var wantNull := if LooselyEqualsWord(c.op, "is_null") then Truthy(c.value) else !Truthy(c.value);
      var part := if wantNull then IsNull(field.value) else IsNotNull(field.value);
      Success(Translation(Append(acc.expr, part), acc.params, acc.counter))
  }

  /** The in/not_in branch: the value must be an array. "in" binds the
      whole prepared array to one placeholder; anything else (`in_array`
      leaves "not_in") expands null-safely, adding nothing for an empty
      array. */
  function AddMembership(repo: Repository, acc: Translation, c: Criterion): (r: Result<Translation, Error>)
    requires acc.expr.Composite?
    ensures r.Success? ==> Extends(acc.expr, r.value.expr) && IssuedAfter(acc, r.value)
    ensures r.Success? ==>
              |r.value.expr.parts| == |acc.expr.parts|
                                      + (if !LooselyEqualsWord(c.op, "in") && c.value == Arr([]) then 0 else 1)
    ensures !c.value.Arr? ==> r == Failure(InvalidValueForOperator(c.op))
  {
    var field := QualifiedField(repo.alias, c.field);
    if !c.value.Arr? then Failure(InvalidValueForOperator(c.op))
    else
      var prepared := PrepareValue.Prepare(repo.formatDate, c.value);
      if LooselyEqualsWord(c.op, "in") then
        if field.None? then Failure(FieldNotScalar(c.field))
        else
          var p := CreateNamedParameter(acc.counter, prepared);
          Success(Translation(Append(acc.expr, In(field.value, p.placeholder)),
                              acc.params + [p.param], p.counter))
      else
        var elems := Values(prepared.entries);
        if |elems| == 0 then Success(acc)
        else if field.None? then Failure(FieldNotScalar(c.field))
        else
          var n := NotInClauses(field.value, elems, acc.counter);
          Success(Translation(Append(acc.expr, Raw(NotInSql(n.clauses))),
                              acc.params + n.params, n.counter))
  }
}

=== FILE: criteria_properties.dfy ===
/** Properties of the criteria translator: how entries are normalised, what
    each operator contributes, the null-safe NOT IN expansion, the error
    conditions, and how the foreach composes. */
module CriteriaProperties {
  import opened Wrappers
  import opened PhpStrings
  import opened PhpValues
  import opened Expressions
  import opened NamedParameters
  import opened Repositories
  import opened PrepareValue
  import opened Criteria

  /** The positional entry `[$field, $operator, $value]` at index `i`. */
  function Triple(i: int, field: string, op: string, value: Value): (e: Entry)
  {
    Entry(IntKey(i), List([Str(field), Str(op), value]))
  }

  /** The element at position k of a list, or null past its end. */
  function At(vs: seq<Value>, k: nat): (v: Value)
  {
    if k < |vs| then vs[k] else Null
  }

  /** A string field is a group marker exactly when it is "or" or "and". */
  lemma GroupWordOfString(s: string)
    ensures IsGroupWord(Str(s)) <==> s == "or" || s == "and"
  {
    LooselyInCharacterised(Str(s), GroupWords);
  }

  /** Qualifying a qualified name leaves it alone, so the alias is never
      prefixed twice. */
  lemma QualifyIdempotent(alias: string, name: string)
    ensures Qualify(alias, Qualify(alias, name)) == Qualify(alias, name)
  {
  }

  // ---------------------------------------------------------------------
  // Normalisation of entries

  /** A three-element positional entry is (field, operator, value). */
  lemma NormalizeTriple(i: int, field: Value, op: Value, value: Value)
    requires !IsGroupWord(field)
    ensures Normalize(Entry(IntKey(i), List([field, op, value]))) == Success(Criterion(field, op, value))
  {
    var es := List([field, op, value]).entries;
    LookupList(es, 0);
    LookupList(es, 1);
    LookupList(es, 2);
  }

  /** A positional entry of any other length is (field, operator) with the
      value `true`; missing positions read as null. */
  lemma NormalizeDefaultTrue(i: int, vs: seq<Value>)
    requires |vs| != 3 && !IsGroupWord(At(vs, 0))
    ensures Normalize(Entry(IntKey(i), List(vs))) == Success(Criterion(At(vs, 0), At(vs, 1), Bool(true)))
  {
    var es := List(vs).entries;
    LookupList(es, 0);
    LookupList(es, 1);
  }

  /** A positional entry whose first element is "or"/"and" has that as its
      operator and its second element as the group, whatever follows. */
  lemma NormalizeGroup(i: int, vs: seq<Value>)
    requires IsGroupWord(At(vs, 0))
    ensures Normalize(Entry(IntKey(i), List(vs))) == Success(Criterion(Null, At(vs, 0), At(vs, 1)))
  {
    var es := List(vs).entries;
    LookupList(es, 0);
    LookupList(es, 1);
  }

  /** A keyed entry `k => null` is the positional `[k, "is_null"]`, and a
      keyed entry `k => v` with any other non-array value is the positional
      `[k, "eq", v]`: both translate identically (unless `k` is itself a
      group marker, which only the positional form treats as one). */
  lemma KeyedIsShorthand(repo: Repository, acc: Translation, i: int, k: string, v: Value)
    requires acc.expr.Composite?
    requires !v.Arr? && k != "or" && k != "and"
    ensures v.Null? ==>
              AddEntry(repo, acc, Entry(StrKey(k), v))
              == AddEntry(repo, acc, Entry(IntKey(i), List([Str(k), Str("is_null")])))
    ensures !v.Null? ==>
              AddEntry(repo, acc, Entry(StrKey(k), v)) == AddEntry(repo, acc, Triple(i, k, "eq", v))
  {
    GroupWordOfString(k);
    if v.Null? {
      NormalizeDefaultTrue(i, [Str(k), Str("is_null")]);
    } else {
      NormalizeTriple(i, Str(k), Str("eq"), v);
    }
  }

  // ---------------------------------------------------------------------
  // What each operator contributes

  /** How a string operator is classified by the chain of `in_array` tests. */
  lemma OperatorClasses(o: string)
    ensures LooselyIn(Str(o), ComparisonWords) <==> o in ComparisonWords
    ensures LooselyIn(Str(o), NullWords) <==> o in NullWords
    ensures LooselyIn(Str(o), SetWords) <==> o in SetWords
    ensures LooselyEqualsWord(Str(o), "is_null") <==> o == "is_null"
    ensures LooselyEqualsWord(Str(o), "in") <==> o == "in"
  {
    LooselyInCharacterised(Str(o), ComparisonWords);
    LooselyInCharacterised(Str(o), NullWords);
    LooselyInCharacterised(Str(o), SetWords);
  }

  /** The operator classes are disjoint, and no operator word is a group
      marker. */
  lemma OperatorWordsApart(op: string)
    ensures op in ComparisonWords ==> op !in NullWords && op !in SetWords && op !in GroupWords
    ensures op in NullWords ==> op !in ComparisonWords && op !in SetWords && op !in GroupWords
    ensures op in SetWords ==> op !in ComparisonWords && op !in NullWords && op !in GroupWords
  {
  }

  /** A positional (field, comparison word, value) entry on a plain field
      goes to the comparison branch. */
  lemma DispatchComparison(repo: Repository, acc: Translation, i: int, f: string, op: string, v: Value)
    requires acc.expr.Composite?
    requires f != "or" && f != "and" && op in ComparisonWords
    ensures AddEntry(repo, acc, Triple(i, f, op, v)) == AddComparison(repo, acc, Criterion(Str(f), Str(op), v))
  {
    OperatorWordsApart(op);
    GroupWordOfString(f);
    NormalizeTriple(i, Str(f), Str(op), v);
    OperatorClasses(op);
  }

  /** ... and one with "is_null"/"not_null" to the null-check branch. */
  lemma DispatchNullCheck(repo: Repository, acc: Translation, i: int, f: string, op: string, v: Value)
    requires acc.expr.Composite?
    requires f != "or" && f != "and" && op in NullWords
    ensures AddEntry(repo, acc, Triple(i, f, op, v)) == AddNullCheck(repo, acc, Criterion(Str(f), Str(op), v))
  {
    GroupWordOfString(f);
    NormalizeTriple(i, Str(f), Str(op), v);
    DispatchNullEntry(repo, acc, Triple(i, f, op, v), Criterion(Str(f), Str(op), v));
  }

  /** Any entry that normalises to a null-check criterion goes to the
      null-check branch. */
  lemma DispatchNullEntry(repo: Repository, acc: Translation, e: Entry, c: Criterion)
    requires acc.expr.Composite? && Normalize(e) == Success(c)
    requires c.op.Str? && c.op.s in NullWords
    ensures AddEntry(repo, acc, e) == AddNullCheck(repo, acc, c)
  {
    OperatorWordsApart(c.op.s);
    OperatorClasses(c.op.s);
  }

  /** ... and one with "in"/"not_in" to the membership branch. */
  lemma DispatchMembership(repo: Repository, acc: Translation, i: int, f: string, op: string, v: Value)
    requires acc.expr.Composite?
    requires f != "or" && f != "and" && op in SetWords
    ensures AddEntry(repo, acc, Triple(i, f, op, v)) == AddMembership(repo, acc, Criterion(Str(f), Str(op), v))
  {
    OperatorWordsApart(op);
    GroupWordOfString(f);
    NormalizeTriple(i, Str(f), Str(op), v);
    OperatorClasses(op);
  }

  /** Each comparison method is reached by its own word and by no other:
      the operator words and the comparisons correspond one to one. */
  lemma ComparisonWordNamed(c: Comparison, op: Value)
    ensures ComparisonNamed(Str(ComparisonWord(c))) == Some(c)
    ensures ComparisonNamed(op) == Some(c) <==> op == Str(ComparisonWord(c))
  {
    match c
    case Eq =>
    case Neq =>
    case Gt =>
    case Gte =>
    case Lt =>
    case Lte =>
    case Like =>
  }

  /** A comparison against null is IS NULL, whatever the comparison. */
  lemma ComparisonWithNull(repo: Repository, acc: Translation, i: int, f: string, op: string)
    requires acc.expr.Composite?
    requires f != "or" && f != "and" && op in ComparisonWords
    ensures AddEntry(repo, acc, Triple(i, f, op, Null))
            == Success(Translation(Append(acc.expr, IsNull(Qualify(repo.alias, f))), acc.params, acc.counter))
  {
    DispatchComparison(repo, acc, i, f, op, Null);
  }

  /** A comparison against any other non-array value compares the
      qualified field, by the comparison its word names, with a fresh
      placeholder, and binds exactly one parameter, holding the prepared
      value. */
  lemma ComparisonBindsOne(repo: Repository, acc: Translation, i: int, f: string, c: Comparison, v: Value)
    requires acc.expr.Composite?
    requires f != "or" && f != "and"
    requires !v.Null? && !v.Arr?
    ensures AddEntry(repo, acc, Triple(i, f, ComparisonWord(c), v))
            == Success(Translation(
                 Append(acc.expr, Compare(c, Qualify(repo.alias, f), Placeholder(acc.counter + 1))),
                 acc.params + [Param(ParamName(acc.counter + 1), Prepare(repo.formatDate, v))],
                 acc.counter + 1))
  {
    DispatchComparison(repo, acc, i, f, ComparisonWord(c), v);
    ComparisonWordNamed(c, Str(ComparisonWord(c)));
  }

  /** Comparisons reject array values. */
  lemma ComparisonRejectsArray(repo: Repository, acc: Translation, i: int, f: string, op: string,
                               es: seq<Entry>)
    requires acc.expr.Composite?
    requires f != "or" && f != "and" && op in ComparisonWords
    ensures AddEntry(repo, acc, Triple(i, f, op, Arr(es))) == Failure(ArrayLookupUnsupported(Str(op)))
  {
    DispatchComparison(repo, acc, i, f, op, Arr(es));
  }

  /** "is_null" tests IS NULL for a truthy value and IS NOT NULL otherwise. */
  lemma IsNullOperator(repo: Repository, acc: Translation, i: int, f: string, v: Value)
    requires acc.expr.Composite?
    requires f != "or" && f != "and"
    ensures var qf := Qualify(repo.alias, f);
            AddEntry(repo, acc, Triple(i, f, "is_null", v))
            == Success(Translation(Append(acc.expr, if Truthy(v) then IsNull(qf) else IsNotNull(qf)),
                                   acc.params, acc.counter))
  {
    DispatchNullCheck(repo, acc, i, f, "is_null", v);
  }

  /** "not_null" tests IS NOT NULL for a truthy value and IS NULL
      otherwise: exactly "is_null" with the value's truth negated. */
  lemma NotNullIsInverse(repo: Repository, acc: Translation, i: int, f: string, v: Value)
    requires acc.expr.Composite?
    requires f != "or" && f != "and"
    ensures var qf := Qualify(repo.alias, f);
            AddEntry(repo, acc, Triple(i, f, "not_null", v))
            == Success(Translation(Append(acc.expr, if Truthy(v) then IsNotNull(qf) else IsNull(qf)),
                                   acc.params, acc.counter))
    ensures AddEntry(repo, acc, Triple(i, f, "not_null", v))
            == AddEntry(repo, acc, Triple(i, f, "is_null", Bool(!Truthy(v))))
  {
    DispatchNullCheck(repo, acc, i, f, "not_null", v);
    OperatorClasses("not_null");
    IsNullOperator(repo, acc, i, f, Bool(!Truthy(v)));
  }

  /** The two-element form `[$field, "is_null"]` tests IS NULL. */
  lemma IsNullDefaultTrue(repo: Repository, acc: Translation, i: int, f: string)
    requires acc.expr.Composite?
    requires f != "or" && f != "and"
    ensures AddEntry(repo, acc, Entry(IntKey(i), List([Str(f), Str("is_null")])))
            == Success(Translation(Append(acc.expr, IsNull(Qualify(repo.alias, f))), acc.params, acc.counter))
  {
    GroupWordOfString(f);
    NormalizeDefaultTrue(i, [Str(f), Str("is_null")]);
    DispatchNullEntry(repo, acc, Entry(IntKey(i), List([Str(f), Str("is_null")])),
                      Criterion(Str(f), Str("is_null"), Bool(true)));
    OperatorClasses("is_null");
  }

  /** The two-element form `[$field, "not_null"]` tests IS NOT NULL. */
  lemma NotNullDefaultTrue(repo: Repository, acc: Translation, i: int, f: string)
    requires acc.expr.Composite?
    requires f != "or" && f != "and"
    ensures AddEntry(repo, acc, Entry(IntKey(i), List([Str(f), Str("not_null")])))
            == Success(Translation(Append(acc.expr, IsNotNull(Qualify(repo.alias, f))), acc.params, acc.counter))
  {
    GroupWordOfString(f);
    NormalizeDefaultTrue(i, [Str(f), Str("not_null")]);
    DispatchNullEntry(repo, acc, Entry(IntKey(i), List([Str(f), Str("not_null")])),
                      Criterion(Str(f), Str("not_null"), Bool(true)));
    OperatorClasses("not_null");
  }

  /** "in" binds one parameter holding the whole prepared array. */
  lemma InBindsWholeArray(repo: Repository, acc: Translation, i: int, f: string, es: seq<Entry>)
    requires acc.expr.Composite?
    requires f != "or" && f != "and"
    ensures AddEntry(repo, acc, Triple(i, f, "in", Arr(es)))
            == Success(Translation(
                 Append(acc.expr, In(Qualify(repo.alias, f), Placeholder(acc.counter + 1))),
                 acc.params + [Param(ParamName(acc.counter + 1), Prepare(repo.formatDate, Arr(es)))],
                 acc.counter + 1))
  {
    DispatchMembership(repo, acc, i, f, "in", Arr(es));
    OperatorClasses("in");
  }

  /** "in" and "not_in" reject non-array values. */
  lemma SetOperatorsRejectScalars(repo: Repository, acc: Translation, i: int, f: string, op: string,
                                  v: Value)
    requires acc.expr.Composite?
    requires f != "or" && f != "and" && op in SetWords && !v.Arr?
    ensures AddEntry(repo, acc, Triple(i, f, op, v)) == Failure(InvalidValueForOperator(Str(op)))
  {
    DispatchMembership(repo, acc, i, f, op, v);
  }

  /** "not_in" over an empty array adds nothing and binds nothing. */
  lemma NotInEmpty(repo: Repository, acc: Translation, i: int, f: string)
    requires acc.expr.Composite?
    requires f != "or" && f != "and"
    ensures AddEntry(repo, acc, Triple(i, f, "not_in", Arr([]))) == Success(acc)
  {
    DispatchMembership(repo, acc, i, f, "not_in", Arr([]));
    OperatorClasses("not_in");
  }

  /** "not_in" over a non-empty array adds one raw conjunction of the
      expansion's clauses (one per element, in element order: see
      NotInClauses) and binds the expansion's parameters, one per non-null
      element; the elements are the array's values, prepared. */
  lemma NotInExpansion(repo: Repository, acc: Translation, i: int, f: string, es: seq<Entry>)
    requires acc.expr.Composite?
    requires f != "or" && f != "and" && |es| > 0
    ensures var elems := Values(Prepare(repo.formatDate, Arr(es)).entries);
            var n := NotInClauses(Qualify(repo.alias, f), elems, acc.counter);
            && |elems| == |es|
            && (forall j :: 0 <= j < |es| ==> elems[j] == Prepare(repo.formatDate, es[j].val))
            && AddEntry(repo, acc, Triple(i, f, "not_in", Arr(es)))
               == Success(Translation(Append(acc.expr, Raw(NotInSql(n.clauses))),
                                      acc.params + n.params, n.counter))
  {
    DispatchMembership(repo, acc, i, f, "not_in", Arr(es));
    PreparedElements(repo.formatDate, es);
    NotInMembership(repo, acc, f, es);
  }

  /** The values of a prepared array are its elements' values, prepared. */
  lemma PreparedElements(format: DateTime -> string, es: seq<Entry>)
    ensures var elems := Values(Prepare(format, Arr(es)).entries);
            && |elems| == |es|
            && forall j :: 0 <= j < |es| ==> elems[j] == Prepare(format, es[j].val)
  {
    assert Prepare(format, Arr(es)) == Arr(PrepareEntries(format, es, 0));
  }

  /** The membership branch of "not_in" over a non-empty array of a plain
      field. */
  lemma NotInMembership(repo: Repository, acc: Translation, f: string, es: seq<Entry>)
    requires acc.expr.Composite? && |es| > 0
    ensures var elems := Values(Prepare(repo.formatDate, Arr(es)).entries);
            var n := NotInClauses(Qualify(repo.alias, f), elems, acc.counter);
            AddMembership(repo, acc, Criterion(Str(f), Str("not_in"), Arr(es)))
            == Success(Translation(Append(acc.expr, Raw(NotInSql(n.clauses))), acc.params + n.params, n.counter))
  {
    OperatorClasses("not_in");
    PreparedElements(repo.formatDate, es);
  }

  /** An operator outside the recognised set is rejected. */
  lemma UnknownOperatorRejected(repo: Repository, acc: Translation, i: int, f: string, op: string,
                                v: Value)
    requires acc.expr.Composite?
    requires f != "or" && f != "and"
    requires op !in GroupWords && op !in ComparisonWords && op !in NullWords && op !in SetWords
    ensures AddEntry(repo, acc, Triple(i, f, op, v)) == Failure(UnsupportedOperator(Str(op)))
  {
    GroupWordOfString(f);
    NormalizeTriple(i, Str(f), Str(op), v);
    OperatorClasses(op);
  }

  /** An operator that is not a string is rejected too, unless it is
      `true` or `0`, which PHP 7 loosely equates with every word. */
  lemma NonStringOperatorRejected(repo: Repository, acc: Translation, i: int, f: string,
                                  op: Value, v: Value)
    requires acc.expr.Composite?
    requires f != "or" && f != "and"
    requires !op.Str? && !EqualsEveryWord(op)
    ensures AddEntry(repo, acc, Entry(IntKey(i), List([Str(f), op, v]))) == Failure(UnsupportedOperator(op))
  {
    GroupWordOfString(f);
    NormalizeTriple(i, Str(f), op, v);
    LooselyInCharacterised(op, ComparisonWords);
    LooselyInCharacterised(op, NullWords);
    LooselyInCharacterised(op, SetWords);
  }

  /** A lone field `[$field]` has the operator `null` that `list()` reads
      past the end, and is rejected as an unsupported operator. */
  lemma LoneFieldRejected(repo: Repository, acc: Translation, i: int, f: string)
    requires acc.expr.Composite?
    requires f != "or" && f != "and"
    ensures AddEntry(repo, acc, Entry(IntKey(i), List([Str(f)]))) == Failure(UnsupportedOperator(Null))
  {
    GroupWordOfString(f);
    NormalizeDefaultTrue(i, [Str(f)]);
    LooselyInCharacterised(Null, ComparisonWords);
    LooselyInCharacterised(Null, NullWords);
    LooselyInCharacterised(Null, SetWords);
  }

  // ---------------------------------------------------------------------
  // Groups and the error conditions of the entry shape

  /** `["or", $criteria]` / `["and", $criteria]` adds the translation of
      `$criteria` into a fresh `orX()` / `andX()` as one part; an empty
      group is rejected like empty criteria, and a non-array group by PHP's
      type check. */
  lemma GroupEntry(repo: Repository, acc: Translation, i: int, word: string, group: Value)
    requires acc.expr.Composite? && (word == "or" || word == "and")
    ensures var junction := if word == "or" then OrX else AndX;
            var r := AddEntry(repo, acc, Entry(IntKey(i), List([Str(word), group])));
            && (!group.Arr? ==> r == Failure(GroupNotArray))
            && (group == Arr([]) ==> r == Failure(EmptyCriteria))
            && (group.Arr? ==>
                  match AddCriteria(repo, Composite(junction, []), group.entries, acc.counter)
                  case Failure(err) => r == Failure(err)
                  case Success(sub) =>
                    r == Success(Translation(Append(acc.expr, sub.expr), acc.params + sub.params, sub.counter)))
  {
    GroupWordOfString(word);
    NormalizeGroup(i, [Str(word), group]);
  }

  /** An entry that cannot be normalised fails with the normalisation's
      error, before anything is added or bound. */
  lemma MalformedEntryRejected(repo: Repository, acc: Translation, e: Entry)
    requires acc.expr.Composite? && Normalize(e).Failure?
    ensures AddEntry(repo, acc, e) == Failure(Normalize(e).error)
    ensures e.key.IntKey? ==> AddEntry(repo, acc, e) == Failure(NonIndexedNotArray)
    ensures e.key.StrKey? ==> AddEntry(repo, acc, e) == Failure(IndexedArrayValue)
  {
  }

  /** Every processed entry adds exactly one part to the composite, except
      "not_in" over an empty array, which adds none. */
  lemma EntryAddsOnePart(repo: Repository, acc: Translation, e: Entry)
    requires acc.expr.Composite? && AddEntry(repo, acc, e).Success?
    ensures |AddEntry(repo, acc, e).value.expr.parts| == |acc.expr.parts| + (if AppendsNothing(e) then 0 else 1)
  {
    var c := Normalize(e).value;
    if c.op != Str("or") && c.op != Str("and") && !LooselyIn(c.op, ComparisonWords)
       && !LooselyIn(c.op, NullWords) && LooselyIn(c.op, SetWords) {
      LooselyInCharacterised(c.op, ComparisonWords);
      LooselyInCharacterised(c.op, SetWords);
      assert c.op == Str("in") || c.op == Str("not_in");
    }
  }

  // ---------------------------------------------------------------------
  // The foreach: sequential composition, and no partial success

  /** Running the entries `j..` is running `j..k` and then `k..` from where
      the first run left off. */
  lemma {:induction false} AddEntriesSplit(repo: Repository, acc: Translation, criteria: seq<Entry>,
                                           j: nat, k: nat, mid: Translation)
    requires acc.expr.Composite? && j <= k <= |criteria|
    requires AddEntries(repo, acc, criteria[..k], j) == Success(mid)
    ensures mid.expr.Composite?
    ensures AddEntries(repo, acc, criteria, j) == AddEntries(repo, mid, criteria, k)
    decreases k - j
  {
    var prefix := criteria[..k];
    if j < k {
      assert prefix[j] == criteria[j];
      AddEntriesUnfold(repo, acc, prefix, j);
      AddEntriesUnfold(repo, acc, criteria, j);
      var step := AddEntry(repo, acc, criteria[j]);
      AddEntriesSplit(repo, step.value, criteria, j + 1, k, mid);
    }
  }

  /** A failure while running the entries `j..k` is the failure of running
      all the entries from `j`. */
  lemma {:induction false} AddEntriesAbort(repo: Repository, acc: Translation, criteria: seq<Entry>,
                                           j: nat, k: nat, err: Error)
    requires acc.expr.Composite? && j <= k <= |criteria|
    requires AddEntries(repo, acc, criteria[..k], j) == Failure(err)
    ensures AddEntries(repo, acc, criteria, j) == Failure(err)
    decreases k - j
  {
    var prefix := criteria[..k];
    assert prefix[j] == criteria[j];
    AddEntriesUnfold(repo, acc, prefix, j);
    AddEntriesUnfold(repo, acc, criteria, j);
    var step := AddEntry(repo, acc, criteria[j]);
    if step.Success? {
      AddEntriesAbort(repo, step.value, criteria, j + 1, k, err);
    }
  }

  /** One iteration of the foreach: a failing entry ends the run with its
      error, a successful one hands its state to the next entry. */
  lemma AddEntriesUnfold(repo: Repository, acc: Translation, criteria: seq<Entry>, i: nat)
    requires acc.expr.Composite? && i < |criteria|
    ensures var step := AddEntry(repo, acc, criteria[i]);
            AddEntries(repo, acc, criteria, i)
            == if step.Failure? then Failure(step.error) else AddEntries(repo, step.value, criteria, i + 1)
  {
  }

  /** The first entry that fails decides the outcome: the whole translation
      fails with its error, whatever the later entries are. */
  lemma FirstFailureAborts(repo: Repository, expr: Expr, criteria: seq<Entry>, counter: nat,
                           k: nat, t: Translation, err: Error)
    requires expr.Composite? && k < |criteria|
    requires AddEntries(repo, Translation(expr, [], counter), criteria[..k], 0) == Success(t)
    requires AddEntry(repo, t, criteria[k]) == Failure(err)
    ensures AddCriteria(repo, expr, criteria, counter) == Failure(err)
  {
    AddEntriesSplit(repo, Translation(expr, [], counter), criteria, 0, k, t);
    AddEntriesUnfold(repo, t, criteria, k);
  }

  /** A successful translation bound parameters under pairwise distinct
      names, numbered consecutively from the counter it started with. */
  lemma TranslationNamesDistinct(repo: Repository, expr: Expr, criteria: seq<Entry>, counter: nat)
    requires expr.Composite?
    requires AddCriteria(repo, expr, criteria, counter).Success?
    ensures var t := AddCriteria(repo, expr, criteria, counter).value;
            && t.counter == counter + |t.params|
            && forall a, b :: 0 <= a < b < |t.params| ==> t.params[a].name != t.params[b].name
  {
    var t := AddCriteria(repo, expr, criteria, counter).value;
    IssuedNamesDistinct(t.params, counter, t.counter);
  }

  /** Two repositories that agree on the alias and the date format
      translate every criteria alike: the joins and the join switch play no
      part in `addCriteria`. */
  lemma {:induction false} TranslationIgnoresJoins(a: Repository, b: Repository, expr: Expr, criteria: seq<Entry>,
                                                   counter: nat)
    requires a.alias == b.alias && a.formatDate == b.formatDate && expr.Composite?
    ensures AddCriteria(a, expr, criteria, counter) == AddCriteria(b, expr, criteria, counter)
    decreases Arr(criteria), 2
  {
    if |criteria| > 0 {
      EntriesIgnoreJoins(a, b, Translation(expr, [], counter), criteria, 0);
    }
  }

  /** The foreach part of TranslationIgnoresJoins. */
  lemma {:induction false} EntriesIgnoreJoins(a: Repository, b: Repository, acc: Translation,
                                              criteria: seq<Entry>, i: nat)
    requires a.alias == b.alias && a.formatDate == b.formatDate && acc.expr.Composite? && i <= |criteria|
    ensures AddEntries(a, acc, criteria, i) == AddEntries(b, acc, criteria, i)
    decreases Arr(criteria), 1, |criteria| - i
  {
    if i < |criteria| {
      EntryIgnoresJoins(a, b, acc, criteria[i]);
      var step := AddEntry(a, acc, criteria[i]);
      if step.Success? {
        EntriesIgnoreJoins(a, b, step.value, criteria, i + 1);
      }
    }
  }

  /** The single-entry part of TranslationIgnoresJoins. */
  lemma {:induction false} EntryIgnoresJoins(a: Repository, b: Repository, acc: Translation, e: Entry)
    requires a.alias == b.alias && a.formatDate == b.formatDate && acc.expr.Composite?
    ensures AddEntry(a, acc, e) == AddEntry(b, acc, e)
    decreases e, 0
  {
    match Normalize(e)
    case Failure(_) =>
    case Success(c) =>
      if (c.op == Str("or") || c.op == Str("and")) && c.value.Arr? {
        var junction := if c.op == Str("or") then OrX else AndX;
        TranslationIgnoresJoins(a, b, Composite(junction, []), c.value.entries, acc.counter);
      }
  }
}

=== FILE: expressions.dfy ===
/** The query builder's WHERE-clause vocabulary, as an abstract tree: the
    `andX()`/`orX()` composites, the comparisons the translator dispatches
    to, IS NULL / IS NOT NULL, IN, and the raw SQL text the null-safe NOT IN
    expansion builds. */
module Expressions {
  import opened PhpValues

  /** The two composite kinds, `andX()` and `orX()`. */
  datatype Junction = AndX | OrX

  /** The comparison methods `eq`, `neq`, `gt`, `gte`, `lt`, `lte`, `like`. */
  datatype Comparison = Eq | Neq | Gt | Gte | Lt | Lte | Like

  datatype Expr =
    | Composite(junction: Junction, parts: seq<Expr>)
    | Compare(op: Comparison, field: string, placeholder: string)
    | IsNull(field: string)
    | IsNotNull(field: string)
    | In(field: string, placeholder: string)
    | Raw(sql: string)

  /** `$expr->add($part)` on a composite: the part goes last. */
  function Append(expr: Expr, part: Expr): (r: Expr)
    requires expr.Composite?
    ensures r.Composite? && r.junction == expr.junction
    ensures |r.parts| == |expr.parts| + 1 && r.parts[..|expr.parts|] == expr.parts
    ensures r.parts[|expr.parts|] == part
  {
    Composite(expr.junction, expr.parts + [part])
  }

  /** `b` is the composite `a` with zero or more parts added after the
      existing ones. */
  predicate Extends(a: Expr, b: Expr)
  {
    a.Composite? && b.Composite? && b.junction == a.junction && a.parts <= b.parts
  }

  /** A parameter bound on the query builder with `setParameter`. */
  datatype Param = Param(name: string, value: Value)
}

=== FILE: named_parameters.dfy ===
/** `createNamedParameter`: every bound literal gets a fresh placeholder
    `:paramValueN`, numbered by a counter that lives on the repository
    instance. */
module NamedParameters {
  import opened PhpStrings
  import opened PhpValues
  import opened Expressions

  /** The parameter name for counter value `k`. */
  function ParamName(k: nat): (name: string)
  {
    "paramValue" + NatToString(k)
  }

  /** The placeholder written into the expression for counter value `k`. */
  function Placeholder(k: nat): (placeholder: string)
  {
    ":" + ParamName(k)
  }

  /** What one call of `createNamedParameter` produces: the placeholder it
      returns, the parameter it binds, and the counter afterwards. */
  datatype NamedParameter = NamedParameter(placeholder: string, param: Param, counter: nat)

  /** Bump the counter, then bind `value` under the placeholder minus its
      leading ':'. */
  function CreateNamedParameter(counter: nat, value: Value): (r: NamedParameter)
    ensures r.counter == counter + 1
    ensures |r.placeholder| > 1 && r.placeholder[0] == ':'
    ensures r.param == Param(r.placeholder[1..], value)
    ensures r.placeholder == ":paramValue" + NatToString(r.counter)
  {
    var placeholder := Placeholder(counter + 1);
    assert placeholder[1..] == ParamName(counter + 1);
    assert placeholder == ":paramValue" + NatToString(counter + 1);
    NamedParameter(placeholder, Param(placeholder[1..], value), counter + 1)
  }

  /** Two calls return the same placeholder only from the same counter:
      placeholders never collide within one repository instance. */
  lemma PlaceholderInjective(a: nat, b: nat, x: Value, y: Value)
    ensures CreateNamedParameter(a, x).placeholder == CreateNamedParameter(b, y).placeholder
            <==> a == b
  {
    var s := NatToString(a + 1);
    var t := NatToString(b + 1);
    if Placeholder(a + 1) == Placeholder(b + 1) {
      assert s == Placeholder(a + 1)[11..];
      assert t == Placeholder(b + 1)[11..];
      NatToStringInjective(a + 1, b + 1);
    }
  }

  /** `params` are exactly the parameters bound by consecutive calls
      starting from counter `from` and leaving it at `to`: the i-th one is
      named after counter value `from + i + 1`. */
  predicate Issued(params: seq<Param>, from: nat, to: nat)
  {
    && to == from + |params|
    && forall i :: 0 <= i < |params| ==> params[i].name == ParamName(from + i + 1)
  }

  /** Parameters issued from `from` up to `mid`, followed by those issued
      from `mid` up to `to`, were issued from `from` up to `to`. */
  lemma IssuedConcat(a: seq<Param>, b: seq<Param>, from: nat, mid: nat, to: nat)
    requires Issued(a, from, mid) && Issued(b, mid, to)
    ensures Issued(a + b, from, to)
  {
    forall i | 0 <= i < |a + b|
      ensures (a + b)[i].name == ParamName(from + i + 1)
    {
      if i >= |a| {
        assert (a + b)[i] == b[i - |a|];
      }
    }
  }

  /** Parameters issued by consecutive calls have pairwise distinct names,
      so no `setParameter` overwrites an earlier one. */
  lemma IssuedNamesDistinct(params: seq<Param>, from: nat, to: nat)
    requires Issued(params, from, to)
    ensures forall i, j :: 0 <= i < j < |params| ==> params[i].name != params[j].name
  {
    forall i, j | 0 <= i < j < |params|
      ensures params[i].name != params[j].name
    {
      var s := NatToString(from + i + 1);
      var t := NatToString(from + j + 1);
      if params[i].name == params[j].name {
        assert s == ParamName(from + i + 1)[10..];
        assert t == ParamName(from + j + 1)[10..];
        NatToStringInjective(from + i + 1, from + j + 1);
      }
    }
  }
}

=== FILE: php_strings.dfy ===
/** The string primitives the repository relies on: decimal rendering of
    integers (PHP's int-to-string conversion), `trim`, `explode(" ", ...)`
    and `implode`. Strings are sequences of characters. */
module PhpStrings {

  /** The decimal digit character for `d`. */
  function DigitChar(d: nat): (c: char)
    requires d < 10
    ensures '0' <= c <= '9'
  {
    ('0' as int + d) as char
  }

  /** The decimal rendering of a natural number, without leading zeros. */
  function NatToString(n: nat): (s: string)
    ensures 1 <= |s|
    ensures forall i :: 0 <= i < |s| ==> '0' <= s[i] <= '9'
    ensures 1 < |s| ==> s[0] != '0'
    decreases n
  {
    if n < 10 then [DigitChar(n)] else NatToString(n / 10) + [DigitChar(n % 10)]
  }

  /** PHP's conversion of an integer to a string: an optional minus sign
      followed by the decimal digits. */
  function IntToString(i: int): (s: string)
    ensures 1 <= |s|
    ensures '.' !in s
  {
    if i < 0 then "-" + NatToString(-i) else NatToString(i)
  }

  /** The value denoted by a string of decimal digits (an independent
      reading of what NatToString writes). */
  function DigitsValue(s: string): (n: nat)
  {
    if |s| == 0 then 0
    else
      var d := s[|s| - 1] as int - '0' as int;
      DigitsValue(s[..|s| - 1]) * 10 + (if 0 <= d then d else 0)
  }

  /** Reading back the decimal rendering of `n` yields `n`. */
  lemma {:induction false} DigitsValueOfNatToString(n: nat)
    ensures DigitsValue(NatToString(n)) == n
    decreases n
  {
    var s := NatToString(n);
    if n >= 10 {
      DigitsValueOfNatToString(n / 10);
      assert s[..|s| - 1] == NatToString(n / 10);
    }
  }

  /** Distinct numbers have distinct decimal renderings. */
  lemma NatToStringInjective(a: nat, b: nat)
    ensures NatToString(a) == NatToString(b) ==> a == b
  {
    DigitsValueOfNatToString(a);
    DigitsValueOfNatToString(b);
  }

  /** The characters PHP's `trim` removes by default:
      space, tab, newline, carriage return, NUL and vertical tab. */
  predicate IsTrimmed(c: char)
  {
    c == ' ' || c == '\t' || c == '\n' || c == '\r' || c == '\0' || c as int == 11
  }

  /** `ltrim`: drop the leading trimmable characters. */
  function TrimLeft(s: string): (r: string)
    ensures |r| <= |s| && r == s[|s| - |r|..]
    ensures |r| > 0 ==> !IsTrimmed(r[0])
    ensures forall i :: 0 <= i < |s| - |r| ==> IsTrimmed(s[i])
  {
    if |s| > 0 && IsTrimmed(s[0]) then TrimLeft(s[1..]) else s
  }

  /** `rtrim`: drop the trailing trimmable characters. */
  function TrimRight(s: string): (r: string)
    ensures |r| <= |s| && r == s[..|r|]
    ensures |r| > 0 ==> !IsTrimmed(r[|r| - 1])
    ensures forall i :: |r| <= i < |s| ==> IsTrimmed(s[i])
  {
    if |s| > 0 && IsTrimmed(s[|s| - 1]) then TrimRight(s[..|s| - 1]) else s
  }

  /** The number of trimmable characters at the start of `s`. */
  function LeadingTrimmed(s: string): (k: nat)
    ensures k <= |s|
    ensures forall i :: 0 <= i < k ==> IsTrimmed(s[i])
    ensures k < |s| ==> !IsTrimmed(s[k])
  {
    |s| - |TrimLeft(s)|
  }

  /** `trim`: the infix of `s` starting after its leading trimmable
      characters that neither starts nor ends with one, everything after it
      being trimmable. */
  function Trim(s: string): (r: string)
    ensures LeadingTrimmed(s) + |r| <= |s|
    ensures r == s[LeadingTrimmed(s)..LeadingTrimmed(s) + |r|]
    ensures forall i :: LeadingTrimmed(s) + |r| <= i < |s| ==> IsTrimmed(s[i])
    ensures |r| > 0 ==> !IsTrimmed(r[0]) && !IsTrimmed(r[|r| - 1])
  {
    TrimRight(TrimLeft(s))
  }

  /** `implode($glue, $pieces)`: the pieces with `glue` between neighbours. */
  function Implode(pieces: seq<string>, glue: string): (joined: string)
  {
    if |pieces| == 0 then ""
    else if |pieces| == 1 then pieces[0]
    else pieces[0] + glue + Implode(pieces[1..], glue)
  }

  /** `explode(" ", $s)`: the maximal space-free runs of `s`, in order;
      the empty string gives one empty piece. */
  function Explode(s: string): (pieces: seq<string>)
    ensures |pieces| >= 1
    ensures forall i :: 0 <= i < |pieces| ==> ' ' !in pieces[i]
  {
    if |s| == 0 then [""]
    else
      var rest := Explode(s[1..]);
      if s[0] == ' ' then [""] + rest else [[s[0]] + rest[0]] + rest[1..]
  }

  /** `implode(" ", explode(" ", $s)) == $s`: splitting loses nothing. */
  lemma {:induction false} ImplodeExplode(s: string)
    ensures Implode(Explode(s), " ") == s
  {
    if |s| > 0 {
      var rest := Explode(s[1..]);
      ImplodeExplode(s[1..]);
      if s[0] == ' ' {
        assert Explode(s) == [""] + rest;
        assert ([""] + rest)[1..] == rest;
      } else {
        var head := [s[0]] + rest[0];
        assert Explode(s) == [head] + rest[1..];
        if |rest| == 1 {
          assert Implode(rest, " ") == rest[0];
        } else {
          assert ([head] + rest[1..])[1..] == rest[1..];
          assert Implode(rest, " ") == rest[0] + " " + Implode(rest[1..], " ");
        }
      }
    }
  }
}

=== FILE: php_values.dfy ===
/** PHP values as the criteria translator sees them: scalars, `\DateTime`
    instances, other objects, and ordered arrays of key/value entries.
    The comparisons below follow PHP 7, the language version the
    repository targets. */
module PhpValues {
  import opened Wrappers
  import opened PhpStrings

  /** A `\DateTime` instance, abstracted to the instant it denotes. */
  datatype DateTime = DateTime(instant: int)

  /** An array key: PHP stores integer-like keys as integers. */
  datatype Key = IntKey(i: int) | StrKey(s: string)

  /** A PHP value. `Obj` is any object that is not a `\DateTime` (an
      entity passed as an association, typically), known by its identity. */
  datatype Value =
    | Null
    | Bool(b: bool)
    | Int(i: int)
    | Str(s: string)
    | Date(dt: DateTime)
    | Obj(id: nat)
    | Arr(entries: seq<Entry>)

  /** One key => value pair of an array, in iteration order. */
  datatype Entry = Entry(key: Key, val: Value)

  /** `is_object`. */
  predicate IsObject(v: Value)
  {
    v.Date? || v.Obj?
  }

  /** PHP's boolean conversion, as used by `if ($value)`. */
  predicate Truthy(v: Value)
  {
    match v
    case Null => false
    case Bool(b) => b
    case Int(i) => i != 0
    case Str(s) => s != "" && s != "0"
    case Date(_) => true
    case Obj(_) => true
    case Arr(es) => |es| > 0
  }

  /** PHP 7's loose comparison `$v == $word`, where `word` is a non-empty
      word that does not start with a digit (every operator literal of the
      translator is one): a string must match exactly, `true` equals any
      such word, an integer compares with the word's numeric value 0, and
      null (compared as ""), arrays and objects never equal it. */
  predicate LooselyEqualsWord(v: Value, word: string)
  {
    match v
    case Str(s) => s == word
    case Bool(b) => b
    case Int(i) => i == 0
    case _ => false
  }

  /** `in_array($v, $words)` with its default loose comparison. */
  predicate LooselyIn(v: Value, words: seq<string>)
  {
    exists i :: 0 <= i < |words| && LooselyEqualsWord(v, words[i])
  }

  /** The two values other than strings that PHP 7 loosely equates with
      every word: `true` and `0`. */
  predicate EqualsEveryWord(v: Value)
  {
    v == Bool(true) || v == Int(0)
  }

  /** `in_array` against a non-empty word list holds for a string exactly
      when it is one of the words, and always for `true` and `0`. */
  lemma LooselyInCharacterised(v: Value, words: seq<string>)
    requires |words| > 0
    ensures LooselyIn(v, words) <==> (v.Str? && v.s in words) || EqualsEveryWord(v)
  {
    if v.Str? && v.s in words {
      var i :| 0 <= i < |words| && words[i] == v.s;
      assert LooselyEqualsWord(v, words[i]);
    }
    if EqualsEveryWord(v) {
      assert LooselyEqualsWord(v, words[0]);
    }
  }

  /** PHP's conversion of a scalar to a string; arrays and objects (none of
      the objects here defines `__toString`) have no string form. */
  function ToText(v: Value): (r: Option<string>)
    ensures r.Some? <==> !v.Arr? && !IsObject(v)
    ensures v.Str? ==> r == Some(v.s)
  {
    match v
    case Null => Some("")
    case Bool(b) => Some(if b then "1" else "")
    case Int(i) => Some(IntToString(i))
    case Str(s) => Some(s)
    case _ => None
  }

  /** Entry `j` is the first entry of `es` whose key is the integer `k`. */
  predicate FirstIndexed(es: seq<Entry>, k: int, j: int)
  {
    && 0 <= j < |es| && es[j].key == IntKey(k)
    && forall m :: 0 <= m < j ==> es[m].key != IntKey(k)
  }

  /** The value stored under integer key `k`, or null when there is none
      (`list()` reads a missing index as null). */
  function Lookup(es: seq<Entry>, k: int): (r: Value)
    ensures r == Null || exists j :: 0 <= j < |es| && es[j].val == r
    ensures (forall j :: 0 <= j < |es| ==> es[j].key != IntKey(k)) ==> r == Null
    ensures forall j {:trigger FirstIndexed(es, k, j)} :: FirstIndexed(es, k, j) ==> r == es[j].val
  {
    if |es| == 0 then Null
    else if es[0].key == IntKey(k) then es[0].val
    else
      assert forall j {:trigger FirstIndexed(es, k, j)} :: FirstIndexed(es, k, j) ==> FirstIndexed(es[1..], k, j - 1);
      Lookup(es[1..], k)
  }

  /** The entries are keyed `from`, `from + 1`, ... in order. */
  predicate IsListFrom(es: seq<Entry>, from: int)
  {
    forall j :: 0 <= j < |es| ==> es[j].key == IntKey(from + j)
  }

  /** A PHP list: keys 0, 1, 2, ... in order. */
  predicate IsList(es: seq<Entry>)
  {
    IsListFrom(es, 0)
  }

  /** The list `[vs[0], vs[1], ...]`. */
  function List(vs: seq<Value>): (r: Value)
    ensures r.Arr? && |r.entries| == |vs| && IsList(r.entries)
    ensures forall j :: 0 <= j < |vs| ==> r.entries[j].val == vs[j]
  {
    Arr(seq(|vs|, j requires 0 <= j < |vs| => Entry(IntKey(j), vs[j])))
  }

  /** In a list keyed from `from`, key `from + j` holds the j-th element
      and keys past the end are missing. */
  lemma {:induction false} LookupListFrom(es: seq<Entry>, from: int, k: int)
    requires IsListFrom(es, from)
    ensures from <= k < from + |es| ==> Lookup(es, k) == es[k - from].val
    ensures (k < from || from + |es| <= k) ==> Lookup(es, k) == Null
    decreases |es|
  {
    if |es| > 0 {
      assert es[0].key == IntKey(from);
      if k != from {
        assert IsListFrom(es[1..], from + 1) by {
          forall j | 0 <= j < |es[1..]|
            ensures es[1..][j].key == IntKey(from + 1 + j)
          {
            assert es[1..][j] == es[j + 1];
          }
        }
        LookupListFrom(es[1..], from + 1, k);
      }
    }
  }

  /** In a list, `list($a, $b, ...)` reads the elements by position. */
  lemma LookupList(es: seq<Entry>, k: int)
    requires IsList(es)
    ensures 0 <= k < |es| ==> Lookup(es, k) == es[k].val
    ensures (k < 0 || |es| <= k) ==> Lookup(es, k) == Null
  {
    LookupListFrom(es, 0, k);
  }
}

=== FILE: prepare_value.dfy ===
/** `prepareValue`: the normalisation applied to a value before it is bound
    as a parameter. `\DateTime` instances become their 'Y-m-d H:i:s' text;
    arrays are prepared element by element; everything else is kept. */
module PrepareValue {
  import opened PhpValues

  /** Some `\DateTime` occurs in `v`, at any depth. */
  predicate ContainsDate(v: Value)
  {
    match v
    case Date(_) => true
    case Arr(es) => exists j :: 0 <= j < |es| && ContainsDate(es[j].val)
    case _ => false
  }

  /** `format` stands for `DateTime::format('Y-m-d H:i:s')`. */
  function Prepare(format: DateTime -> string, v: Value): (r: Value)
    ensures !ContainsDate(r)
    ensures !ContainsDate(v) ==> r == v
    ensures v.Date? ==> r == Str(format(v.dt))
    ensures v.Arr? <==> r.Arr?
    ensures v.Arr? ==> |r.entries| == |v.entries|
                       && forall j :: 0 <= j < |v.entries| ==> r.entries[j].key == v.entries[j].key
    ensures v.Arr? ==> forall j :: 0 <= j < |v.entries| ==> r.entries[j].val == Prepare(format, v.entries[j].val)
    ensures v.Null? <==> r.Null?
    decreases v, 1
  {
    match v
    case Date(d) => Str(format(d))
    case Arr(es) => Arr(PrepareEntries(format, es, 0))
    case _ => v
  }

  /** The foreach of `prepareValue` over the entries `es[i..]`: same keys,
      same order, each value prepared. */
  function PrepareEntries(format: DateTime -> string, es: seq<Entry>, i: nat): (r: seq<Entry>)
    requires i <= |es|
    ensures |r| == |es| - i
    ensures forall j :: 0 <= j < |r| ==> r[j].key == es[i + j].key
    ensures forall j :: 0 <= j < |r| ==> !ContainsDate(r[j].val)
    ensures forall j :: 0 <= j < |r| ==> r[j].val == Prepare(format, es[i + j].val)
    ensures (forall j :: i <= j < |es| ==> !ContainsDate(es[j].val)) ==> r == es[i..]
    decreases Arr(es), 0, |es| - i
  {
    if i == |es| then []
    else [Entry(es[i].key, Prepare(format, es[i].val))] + PrepareEntries(format, es, i + 1)
  }

  /** Preparing a prepared value changes nothing: `prepareValue` is
      idempotent. */
  lemma PrepareIdempotent(format: DateTime -> string, v: Value)
    ensures Prepare(format, Prepare(format, v)) == Prepare(format, v)
  {
  }
}

=== FILE: query_assembly.dfy ===
/** `buildQuery`: the decisions that shape the query builder — which
    default joins are added, how the order columns are qualified, when the
    limit and offset are set, and the where clause the translator builds
    from the filters. The builder itself is represented by the record of
    what was asked of it. */
module QueryAssembly {
  import opened Wrappers
  import opened PhpStrings
  import opened PhpValues
  import opened Expressions
  import opened NamedParameters
  import opened Repositories
  import opened Criteria
  import opened CriteriaProperties

  /** `$queryBuilder->{$joinType}($joinColumn, $joinTable)`. */
  datatype JoinClause = JoinClause(joinMethod: JoinMethod, column: string, target: string)

  /** `$queryBuilder->addOrderBy($key, $val)`. */
  datatype OrderClause = OrderClause(column: string, direction: Value)

  /** What the query builder was asked for, in order of the calls. */
  datatype Query = Query(
    select: string,
    joins: seq<JoinClause>,
    orderBy: seq<OrderClause>,
    maxResults: Option<Value>,
    firstResult: Option<Value>,
    where: Option<Expr>,
    params: seq<Param>)

  /** A built query and the repository's parameter counter afterwards. */
  datatype Built = Built(query: Query, counter: nat)

  /** `$opt[$name]` after `array_merge([$name => $default], $opt)`: the
      caller's entry when there is one, the default otherwise. */
  function OptionValue(opt: seq<Entry>, name: string, default: Value): (r: Value)
    ensures (forall j :: 0 <= j < |opt| ==> opt[j].key != StrKey(name)) ==> r == default
    ensures (exists j :: 0 <= j < |opt| && opt[j].key == StrKey(name)) ==>
              exists j :: 0 <= j < |opt| && opt[j].key == StrKey(name) && opt[j].val == r
  {
    if |opt| == 0 then default
    else if opt[0].key == StrKey(name) then opt[0].val
    else
      var r := OptionValue(opt[1..], name, default);
      assert forall j :: 1 <= j < |opt| ==> opt[1..][j - 1] == opt[j];
      r
  }

  /** The default joins apply unless there are none or either switch
      disables them. */
  predicate JoinsApply(repo: Repository, opt: seq<Entry>)
  {
    |repo.joins| > 0 && !Truthy(OptionValue(opt, "disable_joins", Bool(false))) && !repo.joinsDisabled
  }

  /** The foreach over `$this->joins`: each join's column qualified with
      the alias unless it is already dotted. */
  function JoinClauses(repo: Repository): (r: seq<JoinClause>)
    ensures |r| == |repo.joins|
    ensures forall k :: 0 <= k < |r| ==>
              && r[k].joinMethod == repo.joins[k].joinMethod
              && r[k].target == repo.joins[k].target
              && r[k].column == Qualify(repo.alias, repo.joins[k].column)
  {
    seq(|repo.joins|, k requires 0 <= k < |repo.joins| =>
      JoinClause(repo.joins[k].joinMethod, Qualify(repo.alias, repo.joins[k].column), repo.joins[k].target))
  }

  /** An order key as `stripos` sees it: integer keys become their decimal
      text. */
  function KeyText(k: Key): (s: string)
    ensures k.StrKey? ==> s == k.s
    ensures k.IntKey? ==> s == IntToString(k.i) && '.' !in s
  {
    match k
    case IntKey(i) => IntToString(i)
    case StrKey(s) => s
  }

  /** The foreach over `$order`: every key qualified, every direction kept. */
  function OrderClauses(alias: string, order: seq<Entry>): (r: seq<OrderClause>)
    ensures |r| == |order|
    ensures forall k :: 0 <= k < |r| ==>
              r[k] == OrderClause(Qualify(alias, KeyText(order[k].key)), order[k].val)
  {
    seq(|order|, k requires 0 <= k < |order| =>
      OrderClause(Qualify(alias, KeyText(order[k].key)), order[k].val))
  }

  /** `if ($limit)` / `if ($offset)`: a falsy value leaves the setting
      untouched. */
  function IfTruthy(v: Value): (r: Option<Value>)
    ensures r.Some? <==> Truthy(v)
    ensures r.Some? ==> r.value == v
  {
    if Truthy(v) then Some(v) else None
  }

  /** `buildQuery($filters, $order, $limit, $offset, $opt)` starting from
      parameter counter `counter`. Only the translation of the filters can
      fail; joins, order, limit and offset are decided as described on
      their helpers. */
  function BuildQuery(repo: Repository, counter: nat, filters: seq<Entry>, order: seq<Entry>, limit: Value,
                      offset: Value, opt: seq<Entry>): (r: Result<Built, Error>)
    ensures |filters| == 0 ==> r.Success? && r.value.query.where.None? && r.value.query.params == []
                                && r.value.counter == counter
    ensures r.Failure? ==> |filters| > 0
    ensures r.Success? ==>
              var q := r.value.query;
              && q.select == repo.alias
              && (JoinsApply(repo, opt) ==> q.joins == JoinClauses(repo))
              && (!JoinsApply(repo, opt) ==> q.joins == [])
              && (forall k :: 0 <= k < |q.joins| ==> '.' in q.joins[k].column)
              && q.orderBy == OrderClauses(repo.alias, order)
              && q.maxResults == IfTruthy(limit) && q.firstResult == IfTruthy(offset)
              && (q.where.Some? <==> |filters| > 0)
              && (q.where.Some? ==> (&& q.where.value.Composite? && q.where.value.junction == AndX
                                     && |q.where.value.parts| <= |filters|))
              && Issued(q.params, counter, r.value.counter)
  {
    var joins := if JoinsApply(repo, opt) then JoinClauses(repo) else [];
    var base := Query(repo.alias, joins, OrderClauses(repo.alias, order), IfTruthy(limit), IfTruthy(offset), None, []);
    if |filters| == 0 then Success(Built(base, counter))
    else
      match AddCriteria(repo, Composite(AndX, []), filters, counter)
      case Failure(err) => Failure(err)
      case Success(t) =>
        Success(Built(base.(where := Some(t.expr), params := t.params), t.counter))
  }

  /** With filters, the where clause is the filters' translation into an
      empty AND, with its parameters and counter; a translation error is
      the query's error. */
  lemma BuildQueryWhere(repo: Repository, counter: nat, filters: seq<Entry>, order: seq<Entry>, limit: Value,
                        offset: Value, opt: seq<Entry>)
    requires |filters| > 0
    ensures var r := BuildQuery(repo, counter, filters, order, limit, offset, opt);
            match AddCriteria(repo, Composite(AndX, []), filters, counter)
            case Failure(err) => r == Failure(err)
            case Success(t) => r.Success? && r.value.query.where == Some(t.expr) && r.value.query.params == t.params
                               && r.value.counter == t.counter
  {
  }

  /** `disableJoins(true)` on the repository and `'disable_joins' => true`
      in the options have the same effect: the query is built as before,
      without its joins. */
  lemma JoinSwitchesAgree(repo: Repository, counter: nat, filters: seq<Entry>, order: seq<Entry>, limit: Value,
                          offset: Value, opt: seq<Entry>)
    ensures var plain := BuildQuery(repo, counter, filters, order, limit, offset, opt);
            var switched := BuildQuery(DisableJoins(repo, true), counter, filters, order, limit, offset, opt);
            var optioned := BuildQuery(repo, counter, filters, order, limit, offset,
                                       [Entry(StrKey("disable_joins"), Bool(true))]);
            && switched == optioned
            && (plain.Failure? <==> switched.Failure?)
            && (plain.Success? ==>
                  switched == Success(plain.value.(query := plain.value.query.(joins := []))))
  {
    var optioned := [Entry(StrKey("disable_joins"), Bool(true))];
    assert OptionValue(optioned, "disable_joins", Bool(false)) == Bool(true);
    assert AddCriteria(DisableJoins(repo, true), Composite(AndX, []), filters, counter)
           == AddCriteria(repo, Composite(AndX, []), filters, counter) by {
      TranslationIgnoresJoins(repo, DisableJoins(repo, true), Composite(AndX, []), filters, counter);
    }
  }
}

=== FILE: repository.dfy ===
/** The per-instance configuration of a repository: the entity's table
    alias, the default joins and the switch that disables them. The
    parameter counter is threaded through the operations separately. */
module Repositories {
  import opened PhpValues

  /** The query builder's join methods a join specification names. */
  datatype JoinMethod = Join | InnerJoin | LeftJoin

  /** A default join: the method, the column joined on, the target alias. */
  datatype JoinSpec = JoinSpec(joinMethod: JoinMethod, column: string, target: string)

  /** `formatDate` stands for `DateTime::format('Y-m-d H:i:s')`, which is
      not part of this model. */
  datatype Repository = Repository(
    alias: string,
    formatDate: DateTime -> string,
    joins: seq<JoinSpec>,
    joinsDisabled: bool)

  /** `disableJoins(bool)`: sets the switch and nothing else. */
  function DisableJoins(repo: Repository, disable: bool): (r: Repository)
    ensures r.joinsDisabled == disable
    ensures r.alias == repo.alias && r.joins == repo.joins && r.formatDate == repo.formatDate
  {
    repo.(joinsDisabled := disable)
  }
}

=== FILE: search_criteria.dfy ===
/** `buildSearchCriteria`: a free-text keyword string becomes criteria that
    require every keyword to match (LIKE '%keyword%') at least one of the
    searchable columns. */
module SearchCriteria {
  import opened Wrappers
  import opened PhpStrings
  import opened PhpValues
  import opened Criteria

  /** `array_filter` without a callback on the exploded keywords: it drops
      the falsy strings, "" and "0". */
  function KeepTruthy(pieces: seq<string>): (r: seq<string>)
    ensures |r| <= |pieces|
    ensures forall i :: 0 <= i < |r| ==> Truthy(Str(r[i])) && r[i] in pieces
    ensures forall p :: p in r <==> p in pieces && Truthy(Str(p))
    ensures (forall i :: 0 <= i < |pieces| ==> Truthy(Str(pieces[i]))) ==> r == pieces
  {
    if |pieces| == 0 then []
    else (if Truthy(Str(pieces[0])) then [pieces[0]] else []) + KeepTruthy(pieces[1..])
  }

  /** `array_filter(explode(" ", trim($keywords)))`. */
  function Keywords(keywords: string): (r: seq<string>)
    ensures forall i :: 0 <= i < |r| ==> ' ' !in r[i] && r[i] != "" && r[i] != "0"
  {
    KeepTruthy(Explode(Trim(keywords)))
  }

  /** `[$column, "like", "%keyword%"]`. */
  function LikeClause(column: Value, keyword: string): (clause: Value)
  {
    List([column, Str("like"), Str("%" + keyword + "%")])
  }

  /** One like-clause per column, as a list. */
  function LikeClauses(keyword: string, columns: seq<Value>): (clauses: Value)
  {
    List(seq(|columns|, j requires 0 <= j < |columns| => LikeClause(columns[j], keyword)))
  }

  /** `["or", [one like-clause per column]]`. */
  function KeywordGroup(keyword: string, columns: seq<Value>): (group: Value)
  {
    List([Str("or"), LikeClauses(keyword, columns)])
  }

  /** One "or" group per keyword, as a list. */
  function KeywordGroups(kws: seq<string>, columns: seq<Value>): (groups: Value)
  {
    List(seq(|kws|, i requires 0 <= i < |kws| => KeywordGroup(kws[i], columns)))
  }

  /** The search criteria: fails without searchable columns; otherwise
      `["and", groups]` with one "or" group per keyword, in keyword order,
      holding one like-clause per column, in column order. */
  function BuildSearchCriteria(keywords: string, columns: seq<Value>): (r: Result<Value, Error>)
    ensures |columns| == 0 <==> r.Failure?
    ensures r.Failure? ==> r.error == NoSearchableColumns
    ensures r.Success? ==>
              var kws := Keywords(keywords);
              && r.value.Arr? && IsList(r.value.entries) && |r.value.entries| == 2
              && r.value.entries[0].val == Str("and")
              && var groups := r.value.entries[1].val;
              && groups.Arr? && IsList(groups.entries) && |groups.entries| == |kws|
              && forall i :: 0 <= i < |kws| ==>
                   var g := groups.entries[i].val;
                   && g.Arr? && IsList(g.entries) && |g.entries| == 2
                   && g.entries[0].val == Str("or")
                   && var clauses := g.entries[1].val;
                   && clauses.Arr? && IsList(clauses.entries) && |clauses.entries| == |columns|
                   && forall j :: 0 <= j < |columns| ==>
                        clauses.entries[j].val == List([columns[j], Str("like"), Str("%" + kws[i] + "%")])
  {
    if |columns| == 0 then Failure(NoSearchableColumns)
    else
      var kws := Keywords(keywords);
      Success(List([Str("and"), KeywordGroups(kws, columns)]))
  }

  /** A string is `trim`'s fixed point when it neither starts nor ends with
      a trimmable character. */
  lemma TrimUntrimmed(s: string)
    requires |s| > 0 ==> !IsTrimmed(s[0]) && !IsTrimmed(s[|s| - 1])
    ensures Trim(s) == s
  {
  }

  /** `explode(" ", implode(" ", $pieces))` gives the pieces back when none
      of them contains a space. */
  lemma {:induction false} ExplodeImplode(pieces: seq<string>)
    requires |pieces| > 0
    requires forall i :: 0 <= i < |pieces| ==> ' ' !in pieces[i]
    ensures Explode(Implode(pieces, " ")) == pieces
    decreases |pieces|, |pieces[0]|
  {
    var p := pieces[0];
    if |p| == 0 {
      if |pieces| > 1 {
        var s := Implode(pieces, " ");
        assert s == " " + Implode(pieces[1..], " ");
        assert s[1..] == Implode(pieces[1..], " ");
        ExplodeImplode(pieces[1..]);
        assert pieces == [""] + pieces[1..];
      }
    } else {
      var s := Implode(pieces, " ");
      var shorter := [p[1..]] + pieces[1..];
      assert forall i :: 0 <= i < |shorter| ==> ' ' !in shorter[i] by {
        assert forall c :: c in p[1..] ==> c in p;
      }
      ExplodeImplode(shorter);
      if |pieces| == 1 {
        assert s == p && s[1..] == p[1..];
      } else {
        assert s == p + " " + Implode(pieces[1..], " ");
        assert s[1..] == Implode(shorter, " ");
      }
      assert s[0] == p[0] && s[0] != ' ';
      assert Explode(s) == [[s[0]] + Explode(s[1..])[0]] + Explode(s[1..])[1..];
      assert [s[0]] + shorter[0] == p;
      assert shorter[1..] == pieces[1..];
      assert pieces == [p] + pieces[1..];
    }
  }

  /** `array_filter` keeps input order: filtering a concatenation filters
      each half and concatenates the results. */
  lemma {:induction false} KeepTruthyAppend(a: seq<string>, b: seq<string>)
    ensures KeepTruthy(a + b) == KeepTruthy(a) + KeepTruthy(b)
    decreases |a|
  {
    if |a| == 0 {
      assert a + b == b;
    } else {
      assert (a + b)[1..] == a[1..] + b;
      KeepTruthyAppend(a[1..], b);
    }
  }

  /** A keyword string made of pieces joined by single spaces reads back as
      the truthy pieces, in order: runs of spaces (empty pieces) and "0"
      pieces are dropped, provided no piece holds a character `trim`
      removes and the string neither starts nor ends with a space. */
  lemma KeywordsOfJoined(pieces: seq<string>)
    requires |pieces| > 0 ==> pieces[0] != "" && pieces[|pieces| - 1] != ""
    requires forall i, k :: 0 <= i < |pieces| && 0 <= k < |pieces[i]| ==> !IsTrimmed(pieces[i][k])
    ensures Keywords(Implode(pieces, " ")) == KeepTruthy(pieces)
  {
    if |pieces| == 0 {
      assert Explode(Trim("")) == [""];
    } else {
      var s := Implode(pieces, " ");
      ImplodeFirst(pieces);
      ImplodeLast(pieces);
      TrimUntrimmed(s);
      ExplodeImplode(pieces);
    }
  }

  /** Keywords written out separated by single spaces are read back
      exactly, provided none is empty, "0", or contains a space or another
      character `trim` removes. */
  lemma KeywordsRoundTrip(kws: seq<string>)
    requires forall i :: 0 <= i < |kws| ==> kws[i] != "" && kws[i] != "0"
    requires forall i, k :: 0 <= i < |kws| && 0 <= k < |kws[i]| ==> !IsTrimmed(kws[i][k])
    ensures Keywords(Implode(kws, " ")) == kws
  {
    KeywordsOfJoined(kws);
  }

  /** Joining pieces whose first piece is non-empty starts with that
      piece's first character. */
  lemma ImplodeFirst(pieces: seq<string>)
    requires |pieces| > 0 && |pieces[0]| > 0
    ensures var s := Implode(pieces, " ");
            |s| > 0 && s[0] == pieces[0][0]
  {
  }

  /** Joining pieces whose last piece is non-empty ends with that piece's
      last character. */
  lemma {:induction false} ImplodeLast(pieces: seq<string>)
    requires |pieces| > 0 && |pieces[|pieces| - 1]| > 0
    ensures var s := Implode(pieces, " ");
            |s| > 0 && s[|s| - 1] == pieces[|pieces| - 1][|pieces[|pieces| - 1]| - 1]
    decreases |pieces|
  {
    if |pieces| > 1 {
      ImplodeLast(pieces[1..]);
    }
  }
}

=== FILE: search_translation.dfy ===
/** What the translator makes of `buildSearchCriteria`'s output when it is
    passed as one positional filter entry: an AND, over the keywords, of
    ORs, over the columns, of LIKE comparisons with fresh placeholders;
    or, when the keyword string holds no keyword, the "Empty criteria"
    error. */
module SearchTranslation {
  import opened Wrappers
  import opened PhpValues
  import opened Expressions
  import opened NamedParameters
  import opened Repositories
  import opened PrepareValue
  import opened Criteria
  import opened CriteriaProperties
  import opened SearchCriteria
  import opened SeqFacts

  /** Searchable columns given by name. */
  function Columns(names: seq<string>): (r: seq<Value>)
    ensures |r| == |names| && forall j :: 0 <= j < |names| ==> r[j] == Str(names[j])
  {
    seq(|names|, j requires 0 <= j < |names| => Str(names[j]))
  }

  /** No column is named "or" or "and" (such a column would be read as a
      group marker by the translator). */
  predicate PlainNames(names: seq<string>)
  {
    forall j :: 0 <= j < |names| ==> names[j] != "or" && names[j] != "and"
  }

  /** The comparisons one keyword's group translates to. */
  function LikeParts(alias: string, names: seq<string>, counter: nat): (parts: seq<Expr>)
  {
    seq(|names|, j requires 0 <= j < |names| =>
      Compare(Like, Qualify(alias, names[j]), Placeholder(counter + j + 1)))
  }

  /** The parameters one keyword's group binds: its pattern, once per column. */
  function LikeParams(keyword: string, names: seq<string>, counter: nat): (bound: seq<Param>)
  {
    seq(|names|, j requires 0 <= j < |names| =>
      Param(ParamName(counter + j + 1), Str("%" + keyword + "%")))
  }

  /** The OR composites of keywords `ks`, one per keyword, each numbering
      its placeholders on from where the one before stopped. */
  function KeywordParts(alias: string, ks: seq<string>, names: seq<string>, start: nat): (r: seq<Expr>)
    ensures |r| == |ks|
    decreases |ks|
  {
    if |ks| == 0 then []
    else [Composite(OrX, LikeParts(alias, names, start))] + KeywordParts(alias, ks[1..], names, start + |names|)
  }

  /** The parameters bound for keywords `ks`: each keyword's pattern once
      per column. */
  function KeywordParams(ks: seq<string>, names: seq<string>, start: nat): (bound: seq<Param>)
    decreases |ks|
  {
    if |ks| == 0 then []
    else LikeParams(ks[0], names, start) + KeywordParams(ks[1..], names, start + |names|)
  }

  /** One successful iteration hands its state on to the rest of the
      foreach. */
  lemma AddEntriesStep(repo: Repository, acc: Translation, criteria: seq<Entry>, i: nat, next: Translation,
                       last: Translation)
    requires acc.expr.Composite? && next.expr.Composite? && i < |criteria|
    requires AddEntry(repo, acc, criteria[i]) == Success(next)
    requires AddEntries(repo, next, criteria, i + 1) == Success(last)
    ensures AddEntries(repo, acc, criteria, i) == Success(last)
  {
  }

  /** Criteria of a single entry translate as that entry does on its own. */
  lemma AddCriteriaSingle(repo: Repository, expr: Expr, e: Entry, counter: nat)
    requires expr.Composite?
    ensures AddCriteria(repo, expr, [e], counter) == AddEntry(repo, Translation(expr, [], counter), e)
  {
    var step := AddEntry(repo, Translation(expr, [], counter), e);
    if step.Success? {
      assert AddEntries(repo, step.value, [e], 1) == Success(step.value);
    }
  }

  /** The translation of one keyword's group after its first `j` columns. */
  function OrState(alias: string, keyword: string, names: seq<string>, counter: nat, j: nat): (state: Translation)
    requires j <= |names|
  {
    Translation(Composite(OrX, LikeParts(alias, names, counter)[..j]),
                LikeParams(keyword, names, counter)[..j], counter + j)
  }

  /** "like" is the word of the LIKE comparison. */
  lemma LikeWord()
    ensures ComparisonWord(Like) == "like"
  {
  }

  /** A like-clause on a plain column compares the qualified column with a
      fresh placeholder bound to the pattern itself. */
  lemma LikeBindsPattern(repo: Repository, acc: Translation, j: int, name: string, pattern: string)
    requires acc.expr.Composite? && name != "or" && name != "and"
    ensures AddEntry(repo, acc, Triple(j, name, "like", Str(pattern)))
            == Success(Translation(Append(acc.expr, Compare(Like, Qualify(repo.alias, name), Placeholder(acc.counter + 1))),
                                   acc.params + [Param(ParamName(acc.counter + 1), Str(pattern))], acc.counter + 1))
  {
    ComparisonBindsOne(repo, acc, j, name, Like, Str(pattern));
    LikeWord();
    assert Prepare(repo.formatDate, Str(pattern)) == Str(pattern);
  }

  /** Column `j`'s like-clause appends its comparison and binds the pattern. */
  lemma OrGroupStep(repo: Repository, keyword: string, names: seq<string>, counter: nat, j: nat)
    requires j < |names| && PlainNames(names)
    ensures AddEntry(repo, OrState(repo.alias, keyword, names, counter, j), LikeClauses(keyword, Columns(names)).entries[j])
            == Success(OrState(repo.alias, keyword, names, counter, j + 1))
  {
    var parts := LikeParts(repo.alias, names, counter);
    var params := LikeParams(keyword, names, counter);
    var pattern := "%" + keyword + "%";
    var before := OrState(repo.alias, keyword, names, counter, j);
    var after := OrState(repo.alias, keyword, names, counter, j + 1);
    assert LikeClauses(keyword, Columns(names)).entries[j] == Triple(j, names[j], "like", Str(pattern));
    LikeBindsPattern(repo, before, j, names[j], pattern);
    assert parts[j] == Compare(Like, Qualify(repo.alias, names[j]), Placeholder(before.counter + 1));
    assert params[j] == Param(ParamName(before.counter + 1), Str(pattern));
    PrefixSnoc(parts, j);
    PrefixSnoc(params, j);
    assert Translation(Append(before.expr, parts[j]), before.params + [params[j]], before.counter + 1) == after;
  }

  /** The foreach over one keyword's like-clauses, from column `j` on. */
  lemma {:induction false} OrGroupFrom(repo: Repository, keyword: string, names: seq<string>, counter: nat,
                                       j: nat)
    requires j <= |names| && PlainNames(names)
    ensures AddEntries(repo, OrState(repo.alias, keyword, names, counter, j), LikeClauses(keyword, Columns(names)).entries, j)
            == Success(OrState(repo.alias, keyword, names, counter, |names|))
    decreases |names| - j
  {
    var clauses := LikeClauses(keyword, Columns(names)).entries;
    var last := OrState(repo.alias, keyword, names, counter, |names|);
    if j < |names| {
      var here := OrState(repo.alias, keyword, names, counter, j);
      var next := OrState(repo.alias, keyword, names, counter, j + 1);
      OrGroupStep(repo, keyword, names, counter, j);
      OrGroupFrom(repo, keyword, names, counter, j + 1);
      AddEntriesStep(repo, here, clauses, j, next, last);
    }
  }

  /** One keyword's "or" group: one LIKE per column, in column order, each
      with its own placeholder bound to "%keyword%". */
  lemma OrGroupTranslation(repo: Repository, keyword: string, names: seq<string>, counter: nat)
    requires |names| > 0 && PlainNames(names)
    ensures AddCriteria(repo, Composite(OrX, []), LikeClauses(keyword, Columns(names)).entries, counter)
            == Success(Translation(Composite(OrX, LikeParts(repo.alias, names, counter)),
                                   LikeParams(keyword, names, counter), counter + |names|))
  {
    OrGroupFrom(repo, keyword, names, counter, 0);
    assert OrState(repo.alias, keyword, names, counter, 0) == Translation(Composite(OrX, []), [], counter);
    assert LikeParts(repo.alias, names, counter)[..|names|] == LikeParts(repo.alias, names, counter);
    assert LikeParams(keyword, names, counter)[..|names|] == LikeParams(keyword, names, counter);
  }

  /** Keyword `i`'s group appends its OR composite and binds its
      patterns, numbered on from the current counter. */
  lemma AndGroupsStep(repo: Repository, kws: seq<string>, names: seq<string>, i: nat, acc: Translation)
    requires i < |kws| && |names| > 0 && PlainNames(names) && acc.expr.Composite?
    ensures AddEntry(repo, acc, KeywordGroups(kws, Columns(names)).entries[i])
            == Success(AfterGroup(repo.alias, kws[i], names, acc))
  {
    var clauses := LikeClauses(kws[i], Columns(names));
    assert KeywordGroups(kws, Columns(names)).entries[i] == Entry(IntKey(i), List([Str("or"), clauses]));
    OrGroupTranslation(repo, kws[i], names, acc.counter);
    GroupEntry(repo, acc, i, "or", clauses);
  }

  /** Keyword `keyword`'s group added to `acc`: its OR composite appended
      and its patterns bound from the current counter on. */
  function AfterGroup(alias: string, keyword: string, names: seq<string>, acc: Translation): (r: Translation)
    requires acc.expr.Composite?
    ensures r.expr.Composite?
  {
    Translation(Append(acc.expr, Composite(OrX, LikeParts(alias, names, acc.counter))),
                acc.params + LikeParams(keyword, names, acc.counter), acc.counter + |names|)
  }

  /** The groups of keywords `ks` added to `acc`, one after the other. */
  function AfterGroups(alias: string, ks: seq<string>, names: seq<string>, acc: Translation): (r: Translation)
    requires acc.expr.Composite?
    decreases |ks|
  {
    if |ks| == 0 then acc else AfterGroups(alias, ks[1..], names, AfterGroup(alias, ks[0], names, acc))
  }

  /** Keyword `i`'s group hands its state on to the rest of the foreach. */
  lemma AndGroupsAdvance(repo: Repository, kws: seq<string>, names: seq<string>, i: nat, acc: Translation,
                         last: Translation)
    requires i < |kws| && |names| > 0 && PlainNames(names) && acc.expr.Composite?
    requires AddEntries(repo, AfterGroup(repo.alias, kws[i], names, acc), KeywordGroups(kws, Columns(names)).entries,
                        i + 1) == Success(last)
    ensures AddEntries(repo, acc, KeywordGroups(kws, Columns(names)).entries, i) == Success(last)
  {
    AndGroupsStep(repo, kws, names, i, acc);
    AddEntriesStep(repo, acc, KeywordGroups(kws, Columns(names)).entries, i,
                   AfterGroup(repo.alias, kws[i], names, acc), last);
  }

  /** The foreach over the keyword groups, from keyword `i` on, adds the
      groups of `kws[i..]` in order. */
  lemma {:induction false} AndGroupsFrom(repo: Repository, kws: seq<string>, names: seq<string>, i: nat,
                                         acc: Translation)
    requires i <= |kws| && |names| > 0 && PlainNames(names) && acc.expr.Composite?
    ensures AddEntries(repo, acc, KeywordGroups(kws, Columns(names)).entries, i)
            == Success(AfterGroups(repo.alias, kws[i..], names, acc))
    decreases |kws| - i
  {
    if i < |kws| {
      var next := AfterGroup(repo.alias, kws[i], names, acc);
      AndGroupsFrom(repo, kws, names, i + 1, next);
      AndGroupsAdvance(repo, kws, names, i, acc, AfterGroups(repo.alias, kws[i + 1..], names, next));
      assert kws[i..][0] == kws[i] && kws[i..][1..] == kws[i + 1..];
    } else {
      assert |KeywordGroups(kws, Columns(names)).entries| == |kws| && kws[i..] == [];
    }
  }

  /** Adding the groups of `ks` appends one OR composite per keyword and
      binds one parameter per keyword and column. */
  lemma {:induction false} AfterGroupsClosedForm(alias: string, ks: seq<string>, names: seq<string>,
                                                 acc: Translation)
    requires acc.expr.Composite?
    ensures AfterGroups(alias, ks, names, acc)
            == Translation(Composite(acc.expr.junction, acc.expr.parts + KeywordParts(alias, ks, names, acc.counter)),
                           acc.params + KeywordParams(ks, names, acc.counter), acc.counter + |ks| * |names|)
    decreases |ks|
  {
    if |ks| == 0 {
      assert acc.expr.parts + [] == acc.expr.parts && acc.params + [] == acc.params;
    } else {
      var next := AfterGroup(alias, ks[0], names, acc);
      AfterGroupsClosedForm(alias, ks[1..], names, next);
      var group := Composite(OrX, LikeParts(alias, names, acc.counter));
      var bound := LikeParams(ks[0], names, acc.counter);
      var restParts := KeywordParts(alias, ks[1..], names, acc.counter + |names|);
      var restParams := KeywordParams(ks[1..], names, acc.counter + |names|);
      assert acc.expr.parts + [group] + restParts == acc.expr.parts + ([group] + restParts);
      assert acc.params + bound + restParams == acc.params + (bound + restParams);
      assert acc.counter + |names| + (|ks| - 1) * |names| == acc.counter + |ks| * |names|;
    }
  }

  /** The keyword groups under "and": one OR composite per keyword, in
      keyword order, the placeholders numbered on from keyword to keyword. */
  lemma AndGroupsTranslation(repo: Repository, kws: seq<string>, names: seq<string>, counter: nat)
    requires |kws| > 0 && |names| > 0 && PlainNames(names)
    ensures AddCriteria(repo, Composite(AndX, []), KeywordGroups(kws, Columns(names)).entries, counter)
            == Success(Translation(Composite(AndX, KeywordParts(repo.alias, kws, names, counter)),
                                   KeywordParams(kws, names, counter), counter + |kws| * |names|))
  {
    var first := Translation(Composite(AndX, []), [], counter);
    AndGroupsFrom(repo, kws, names, 0, first);
    assert kws[0..] == kws;
    AfterGroupsClosedForm(repo.alias, kws, names, first);
    var parts := KeywordParts(repo.alias, kws, names, counter);
    var bound := KeywordParams(kws, names, counter);
    assert [] + parts == parts && [] + bound == bound;
    assert AddCriteria(repo, Composite(AndX, []), KeywordGroups(kws, Columns(names)).entries, counter)
           == AddEntries(repo, first, KeywordGroups(kws, Columns(names)).entries, 0);
  }

  /** The entry `[..., ["and", groups]]` for keywords `kws`: with no
      keyword it fails with "Empty criteria"; otherwise it is the AND of the
      keyword groups. */
  lemma SearchEntryTranslation(repo: Repository, kws: seq<string>, names: seq<string>, key: int, counter: nat)
    requires |names| > 0 && PlainNames(names)
    ensures var e := Entry(IntKey(key), List([Str("and"), KeywordGroups(kws, Columns(names))]));
            var r := AddCriteria(repo, Composite(AndX, []), [e], counter);
            && (|kws| == 0 ==> r == Failure(EmptyCriteria))
            && (|kws| > 0 ==>
                  r == Success(Translation(
                         Composite(AndX, [Composite(AndX, KeywordParts(repo.alias, kws, names, counter))]),
                         KeywordParams(kws, names, counter),
                         counter + |kws| * |names|)))
  {
    var groups := KeywordGroups(kws, Columns(names));
    var e := Entry(IntKey(key), List([Str("and"), groups]));
    var start := Translation(Composite(AndX, []), [], counter);
    AddCriteriaSingle(repo, Composite(AndX, []), e, counter);
    GroupEntry(repo, start, key, "and", groups);
    if |kws| > 0 {
      AndGroupsTranslation(repo, kws, names, counter);
      var sub := Translation(Composite(AndX, KeywordParts(repo.alias, kws, names, counter)),
                             KeywordParams(kws, names, counter), counter + |kws| * |names|);
      assert AddCriteria(repo, Composite(AndX, []), groups.entries, counter) == Success(sub);
      assert Append(start.expr, sub.expr) == Composite(AndX, [sub.expr]);
    } else {
      assert groups == Arr([]);
    }
  }

  /** Translating the search criteria, passed as one positional filter
      entry: with no keyword the translation fails with "Empty criteria";
      otherwise it is the AND, over the keywords in order, of the OR, over
      the columns in order, of `column LIKE :placeholder`, binding
      "%keyword%" once per keyword and column. */
  lemma SearchCriteriaTranslation(repo: Repository, keywords: string, names: seq<string>, key: int,
                                  counter: nat)
    requires |names| > 0 && PlainNames(names)
    ensures BuildSearchCriteria(keywords, Columns(names)).Success?
    ensures var search := BuildSearchCriteria(keywords, Columns(names)).value;
            var kws := Keywords(keywords);
            var r := AddCriteria(repo, Composite(AndX, []), [Entry(IntKey(key), search)], counter);
            && (|kws| == 0 ==> r == Failure(EmptyCriteria))
            && (|kws| > 0 ==>
                  r == Success(Translation(
                         Composite(AndX, [Composite(AndX, KeywordParts(repo.alias, kws, names, counter))]),
                         KeywordParams(kws, names, counter),
                         counter + |kws| * |names|)))
  {
    SearchEntryTranslation(repo, Keywords(keywords), names, key, counter);
  }
}

=== FILE: seq_facts.dfy ===
/** Small facts about sequences that the proofs use at several types. */
module SeqFacts {
  /** Extending a prefix by the next element gives the next prefix. */
  lemma PrefixSnoc<T>(s: seq<T>, j: nat)
    requires j < |s|
    ensures s[..j] + [s[j]] == s[..j + 1]
  {
  }
}

=== FILE: wrappers.dfy ===
/** Failure-carrying result types used by every operation of the model. */
module Wrappers {

  /** An optional value. */
  datatype Option<+T> = None | Some(value: T)

  /** The outcome of an operation that either succeeds with a value or
      raises an error (a PHP exception). */
  datatype Result<+T, +E> = Success(value: T) | Failure(error: E)
}
